=== FILE: README.md ===
# OSM tile viewer: tile bookkeeping in Dafny

This project models the integer bookkeeping behind a small OpenStreetMap
viewer. It covers three Qt map views, a Go cache pre-loader, a Go caching
tile server and a place-search box. Each event handler is a pure transition
on an immutable state. Replies that arrive in any order are any interleaving
of those transitions.

- `base.dfy` (`Base`): optional values, bytes, a reply datatype
  (`NetworkError | Payload`), `Distinct`, `Pow2`, and the wheel's target
  level shared by the three viewers.
- `tile_name.dfy` (`TileName`): the store-key parser `check_and_extract_numbers`
  (`^(\d+)_(\d+)_(\d+)_tile$` under Python's `re.match`) and the formatter
  `f"{x}_{y}_{z}_tile"`.
- `viewport.dfy` (`Viewport`): visible rectangle to tile spans, horizontal
  wrap `x % 2^zoom`, and the cells each `updateTiles` variant visits.
- `wrapping_view.dfy` (`WrappingView`): py-src/osm_graphics_view.py. Preview
  tiles, keys `(zoom, x, y, world_offset)`, the zoom-staleness guard, the
  three zoom handlers and `fitToBoundingBox`.
- `scene_view.dfy` (`SceneView`): src/osm_graphics_view.py. No preview,
  `updateSceneRect`, the zoom step that hands a snapshot to a fade-out,
  and `cleanupOldTiles`.
- `cached_view.dfy` (`CachedView`): example/osm_map_view.py. Clipped keys
  `(zoom, x, y)`, a store read-through in `loadTile`, a write-through in the
  reply handler, no staleness guard, the animation group, and `loadCache`.
- `box_loader.dfy` (`BoxLoader`): example/load_cache/main.go. Tiles of a
  box, the per-tile skip/fetch/enqueue decision, and batched pipeline writes.
- `tile_server.dfy` (`TileServer`): src/osm_tile_server/main.go. The
  `/{z}/{x}/{y}.png` handler over a key-value map.
- `search.dfy` (`Search`): py-src/searchwidget.py. Lookup outcomes, ranking
  by `(place_rank, display_name)`, a last-wins box table, and the selection
  check.

Everything outside the model is a parameter:
- the key-value store is a `map<string, Bytes>`;
- pixmap decoding is `decodes: Bytes -> bool`;
- the best-zoom fit test is `fits: nat -> bool`;
- Python's `float` is `toFloat: string -> Option<real>`;
- network, store and HTTP results are datatypes passed to each handler;
- the visible rectangle after re-centring is a `Rect` argument.

Where the code and its comments disagree, the model follows the code.
- `calculateBestZoom` tries 19 down to 1, not down to 0.
- `fitToBoundingBox` stores `None` rather than keeping the zoom.
- src's `updateSceneRect` makes a square scene, not one three worlds wide.
- The Go server does not stop after writing its error response.

## Model

| member | source | states |
|---|---|---|
| TileName.CheckAndExtractNumbers | py-src/osm_graphics_view.py:20-33 | the first component is True exactly when the regular expression matches; three numbers then, `(False, [])` otherwise |
| TileName.ExtractsGroupValues | py-src/osm_graphics_view.py:27-31 | every `\d+_\d+_\d+_tile` string, with or without a final newline, gives `(True, [int(a), int(b), int(c)])` of its own digit runs |
| TileName.ExtractedFromGroups | py-src/osm_graphics_view.py:27-33 | every accepted string is such a name, and its numbers are `int()` of its three digit runs |
| TileName.SplitComplete | src/osm_graphics_view.py:20-33 | every `\d+_\d+_\d+_tile` string, with or without one final newline, matches with its three digit runs as groups |
| TileName.SplitSound | py-src/osm_graphics_view.py:22-25 | every matched string has exactly that shape: no sign, prefix or other separator |
| TileName.TileNameRoundTrip | example/osm_map_view.py:23-36 | a name `f"{x}_{y}_{z}_tile"` parses back to `(True, [x, y, z])` |
| TileName.FormatTileName | example/osm_map_view.py:120 | computes the store name; what it means is stated by TileName.TileNameRoundTrip and TileName.NegativeColumnRejected |
| TileName.RejectsNonDigitStart | py-src/osm_graphics_view.py:27-33 | a string not starting with a digit (signed numbers, `tile_…` keys, the empty string) gives `(False, [])` |
| TileName.NegativeColumnRejected | example/osm_map_view.py:120 | a name formatted from a negative column is not a tile name |
| TileName.LeadingZerosCollide | example/osm_map_view.py:25-33 | a leading zero gives a different string that parses to the same numbers |
| TileName.TrailingNewlineAccepted | py-src/osm_graphics_view.py:22-25 | `$` also matches before a final newline, so such a name is accepted |
| TileName.DecimalRoundTrip | example/osm_map_view.py:33 | `int(str(n)) == n` for every natural number, with no limit on the digit count |
| Viewport.TileIndex | py-src/osm_graphics_view.py:207-210 | `v // 256` is the tile whose pixel range contains `v` |
| Viewport.SpansCoverRect | py-src/osm_graphics_view.py:207-213 | the scanned column and row spans cover every point of the visible rectangle |
| Viewport.Wrap | py-src/osm_graphics_view.py:213-215 | `0 <= wrapped_x < 2^zoom`, the offset is a whole number of worlds, and `wrapped_x + world_offset == x` |
| Viewport.WrapUnique | src/osm_graphics_view.py:99-101 | the wrap is the only such split of a scene column |
| Viewport.WrapLeftOfOrigin | py-src/osm_graphics_view.py:214-215 | at zoom 5, scene column -1 is image column 31 one world to the left |
| Viewport.WrappedCells | py-src/osm_graphics_view.py:213-218 | the wrapping loops visit exactly the in-world keys whose scene column and row are scanned, each once |
| Viewport.ClippedCells | example/osm_map_view.py:101-112 | the clipping loops visit exactly the keys with both indices in `[0, 2^zoom - 1]` inside the spans, each once |
| WrappingView.Scan | py-src/osm_graphics_view.py:213-237 | fetches exactly the unfiled cells; files a preview under each when the preview loads; keeps every filed entry |
| WrappingView.PreLoadTile | py-src/osm_graphics_view.py:224-237 | computes the preview filing; its effect is stated by WrappingView.Scan and WrappingView.MissingPreviewRefetches |
| WrappingView.UpdateTiles | py-src/osm_graphics_view.py:200-222 | computes the scan; its fetches are stated by WrappingView.UpdateTilesFetches and its filing by WrappingView.Scan |
| WrappingView.UpdateTilesFetches | py-src/osm_graphics_view.py:200-222 | `updateTiles` fetches exactly the visible in-world keys not yet filed, with no duplicates |
| WrappingView.PreviewSuppressesRefetch | py-src/osm_graphics_view.py:219-237 | after one `updateTiles` a second one over the same rectangle fetches nothing |
| WrappingView.MissingPreviewRefetches | py-src/osm_graphics_view.py:224-229 | without a preview image nothing is filed, and a repeat fetches the same keys again |
| WrappingView.CopiesFetchedTwice | py-src/osm_graphics_view.py:213-221 | two visible copies of one tile image are two keys, both fetched |
| WrappingView.HandleTileReply | py-src/osm_graphics_view.py:252-285 | stale zoom, network error or undecodable bytes change nothing; otherwise exactly key `k` is filed at `((x + offset) * 256, y * 256)` |
| WrappingView.RezoomClears | py-src/osm_graphics_view.py:311-323 | committing a zoom clears the map first and then runs `updateTiles`: the fetches are exactly the visible cells of the new level, each once, and every filed key is one of them |
| Base.WheelTarget | py-src/osm_graphics_view.py:302-309 | computes the wheel's target level; its direction and range are stated by WrappingView.ZoomHandlersStep, SceneView.WheelEvent and CachedView.WheelStepsOneLevel |
| WrappingView.WheelEvent | py-src/osm_graphics_view.py:287-323 | computes the wheel step; its direction, edge cases, cleared map and the fetch of every visible cell of the new level are stated by WrappingView.ZoomHandlersStep |
| WrappingView.UpZoomEvent | py-src/osm_graphics_view.py:342-367 | computes the `+` step; its target, cleared map and the fetch of every visible cell of the new level are stated by WrappingView.ZoomHandlersStep |
| WrappingView.DownZoomEvent | py-src/osm_graphics_view.py:369-394 | computes the `-` step; its target, cleared map and the fetch of every visible cell of the new level are stated by WrappingView.ZoomHandlersStep |
| WrappingView.ZoomHandlersStep | py-src/osm_graphics_view.py:302-394 | whenever there is room, the wheel goes up for a positive delta and down otherwise, the `+` button goes up and the `-` button goes down; only at 0 or 19 is the step skipped; each step clears the map, stays in `[0, 19]` and fetches exactly the visible cells of the new level, each once |
| WrappingView.UpdateAndReplyKeepZoomInvariant | py-src/osm_graphics_view.py:200-285 | "every filed key has the current zoom" survives `updateTiles` and every reply |
| WrappingView.ZoomHandlersKeepZoomInvariant | py-src/osm_graphics_view.py:342-394 | the same invariant survives the zoom handlers |
| WrappingView.ScanZoom | py-src/osm_graphics_view.py:116-135 | the search returns the highest fitting level from `z` down to 1, or None when no level in `1..z` fits |
| WrappingView.CalculateBestZoom | py-src/osm_graphics_view.py:116-135 | computes the search from 19; its result is stated by WrappingView.ScanZoom and WrappingView.BestZoomSkipsZero |
| WrappingView.BestZoomSkipsZero | py-src/osm_graphics_view.py:120 | level 0 is never tried, even when it is the only level that fits |
| WrappingView.FitToBoundingBox | py-src/osm_graphics_view.py:81-110 | a reversed box changes nothing; a failed search stores None; a successful one commits the best level and fetches exactly its visible cells not yet filed, once each, without dropping any filed tile |
| WrappingView.FitKeepsStaleTiles | py-src/osm_graphics_view.py:99-110 | moving to another level keeps the old level's tiles, which breaks the zoom invariant |
| WrappingView.UnsetZoomBlocksHandlers | py-src/osm_graphics_view.py:100-101 | with zoom None, `updateTiles` and the three zoom handlers raise before changing anything, and every reply is dropped |
| WrappingView.FitRecoversFromUnset | py-src/osm_graphics_view.py:99-110 | `fitToBoundingBox` assigns the zoom without reading it, so a box fitting some level from 1 to 19 brings a level back |
| WrappingView.WideBoxUnsetsZoom | py-src/osm_graphics_view.py:100 | a box that fits only at level 0 leaves the viewer with zoom None |
| WrappingView.ScanZoomToZero | py-src/osm_graphics_view.py:120 | the search as commented, 19 down to 0: None only when no level fits |
| WrappingView.CalculateBestZoomCorrected | py-src/osm_graphics_view.py:116-135 | if any level in `[0, 19]` fits, the highest fitting level is returned |
| WrappingView.FitToBoundingBoxCorrected | py-src/osm_graphics_view.py:99-100 | the zoom stays a level in `[0, 19]`; when no level fits the current zoom is kept, otherwise the highest fitting level from 19 down to 0 is committed; no filed tile is dropped |
| SceneView.SceneRectIsWorld | src/osm_graphics_view.py:76-84 | the scene is square, and a tile lies inside it exactly when its column and row are in `[0, 2^zoom)` |
| SceneView.SceneRect | src/osm_graphics_view.py:76-84 | computes the scene rectangle; its shape is stated by SceneView.SceneRectIsWorld |
| SceneView.Missing | src/osm_graphics_view.py:99-107 | the loop requests exactly the scanned cells not filed, once each if the cells are distinct |
| SceneView.UpdateTilesFetches | src/osm_graphics_view.py:86-107 | `updateTiles` fetches exactly the visible in-world keys not filed, with no duplicates |
| SceneView.UpdateTiles | src/osm_graphics_view.py:86-107 | computes the fetches; stated by SceneView.UpdateTilesFetches and SceneView.NoInFlightDedup |
| SceneView.NoInFlightDedup | src/osm_graphics_view.py:105-118 | two `updateTiles` calls before any reply fetch every missing key exactly twice |
| SceneView.HandleTileReply | src/osm_graphics_view.py:120-153 | stale, failed and undecodable replies change nothing; otherwise a new item is added to the scene and filed under exactly `k` |
| SceneView.WheelEvent | src/osm_graphics_view.py:155-200 | a positive delta goes one level up and any other one level down, whenever that stays in `[0, 19]`; at the edge nothing changes; on a change the old items go to the fade-out, `tiles` is cleared, the scene is kept and the new level is fetched |
| SceneView.WheelFetchesNewLevel | src/osm_graphics_view.py:180-183 | after a zoom step every visible cell of the new level is fetched |
| SceneView.WheelSnapshotIsOld | src/osm_graphics_view.py:171-173 | the fade-out snapshot holds only items older than any filed afterwards |
| SceneView.ReplyFilesSince | src/osm_graphics_view.py:145-151 | replies file only new items |
| SceneView.CleanupOldTiles | src/osm_graphics_view.py:202-204 | removes exactly the given items from the scene and leaves `tiles` alone |
| SceneView.CleanupSparesNewTiles | src/osm_graphics_view.py:196-204 | the end of a fade-out removes no tile filed since its zoom step |
| CachedView.LoadTile | example/osm_map_view.py:117-146 | a stored tile is filed at once from the stored bytes with no fetch; anything else is fetched and nothing is filed |
| CachedView.Scan | example/osm_map_view.py:107-115 | fetches exactly the cells neither filed nor stored; files exactly the stored ones from the store |
| CachedView.UpdateTilesFetches | example/osm_map_view.py:97-115 | `updateTiles` only touches in-world keys `(zoom, x, y)` not yet filed, and keeps the zoom invariant |
| CachedView.UpdateTiles | example/osm_map_view.py:97-115 | computes the scan; stated by CachedView.UpdateTilesFetches |
| CachedView.StoredBytesNotChecked | example/osm_map_view.py:120-131 | stored bytes are filed even when they do not decode |
| CachedView.HandleTileReply | example/osm_map_view.py:148-175 | errors and undecodable bytes change nothing; otherwise key `k` is filed and its name written to the store |
| CachedView.LateReplyBreaksZoomInvariant | example/osm_map_view.py:148-171 | with no zoom guard, a late reply files a tile of an old zoom |
| CachedView.WrittenTileIsServed | example/osm_map_view.py:117-175 | a written tile is served from the store later, with the same bytes and no fetch |
| CachedView.ClearOldTilesGroup | example/osm_map_view.py:178-183 | drops the group and the animation and nothing else |
| CachedView.ClearOldTilesGroupIdempotent | example/osm_map_view.py:178-183 | clearing twice is clearing once |
| CachedView.WheelEvent | example/osm_map_view.py:190-241 | a running animation is stopped and cleared; a new group and animation exist only when tiles were filed; the zoom is committed, `tiles` cleared, and then every visible cell of the new level is filed from the store when stored and fetched once otherwise |
| CachedView.AnimationFinished | example/osm_map_view.py:231 | the end of a running animation clears the group |
| CachedView.WheelStepsOneLevel | example/osm_map_view.py:196-203 | the wheel moves one level in the turn's direction within `[0, 19]` |
| CachedView.HandlersKeepAnimConsistent | example/osm_map_view.py:205-232 | a group exists exactly while its animation runs, under every handler |
| CachedView.WheelRestoresZoomInvariant | example/osm_map_view.py:234-241 | after a zoom step only keys of the new zoom are filed |
| CachedView.Parsed | example/osm_map_view.py:83-86 | a key yields a triple exactly when it is a tile name |
| CachedView.LoadCacheKeys | example/osm_map_view.py:78-90 | `loadCache` records exactly the triples of the tile names among the keys |
| CachedView.LoadCache | example/osm_map_view.py:78-90 | computes the cache map; its keys and values are stated by CachedView.LoadCacheKeys, CachedView.LoadCacheLastWins and CachedView.WrittenNameIsLoaded |
| CachedView.LoadCacheLastWins | example/osm_map_view.py:81-86 | the last key naming a triple decides its bytes |
| CachedView.WrittenNameIsLoaded | example/osm_map_view.py:174-175 | a name written by the reply handler is loaded under its own `(x, y, z)` with the stored bytes |
| BoxLoader.Min4 | example/load_cache/main.go:38-40 | the minimum is one of the four and no larger than any |
| BoxLoader.Max4 | example/load_cache/main.go:39-41 | the maximum is one of the four and no smaller than any |
| BoxLoader.Column | example/load_cache/main.go:54-56 | the inner loop yields rows `ylo..yhi` of one column, in order |
| BoxLoader.Grid | example/load_cache/main.go:51-59 | the nested loops yield exactly the rectangle, column-major, of length width × height |
| BoxLoader.TilesForBoundingBox | example/load_cache/main.go:29-60 | exactly the in-world tiles between the minimum and maximum corner indices, each once, column-major, length the product of the clamped ranges |
| BoxLoader.LoaderKeysAreNotTileNames | example/load_cache/main.go:149 | the loader's `tile_x_y_z` keys are never viewer tile names |
| BoxLoader.LoaderKey | example/load_cache/main.go:149 | computes the loader's key; stated by BoxLoader.LoaderKeysAreNotTileNames and TileServer.ServerReadsLoaderKeys |
| BoxLoader.TileTask | example/load_cache/main.go:147-180 | only a missing key is fetched; a transport error enqueues nothing; any response is enqueued under the loader key |
| BoxLoader.ErrorPagesAreStored | example/load_cache/main.go:152-179 | a 404 body is enqueued like a tile, and a lookup error skips like a present key |
| BoxLoader.Worker | example/load_cache/main.go:114-137 | the flushes send every entry once, in order: full batches of 100, then one remainder batch |
| TileServer.ServeTile | src/osm_tile_server/main.go:28-81 | a hit is served with no fetch and no store change; a miss or read error fetches, stores the body and serves it; a transport error writes 404 and the error text |
| TileServer.UpstreamErrorPoisonsStore | src/osm_tile_server/main.go:68-80 | after a transport error the empty body is stored, and later requests are served that empty body without fetching |
| TileServer.ServeTileCorrected | src/osm_tile_server/main.go:68-71 | with a return after the error, a transport error leaves the store as it was |
| TileServer.CorrectedStoresOnlyResponses | src/osm_tile_server/main.go:68-80 | with the return, only received bodies are stored and a failed fetch is retried next time |
| TileServer.StoredResponseIsServed | src/osm_tile_server/main.go:35-41 | a stored response is served on the next request with the same bytes and no fetch |
| TileServer.LeadingZeroIsAnotherKey | src/osm_tile_server/main.go:30-34 | "05" and "5" give different keys |
| TileServer.SeparatorInSegmentCollides | src/osm_tile_server/main.go:34 | different paths can share a key, because segments may contain `_` |
| TileServer.ServerReadsLoaderKeys | src/osm_tile_server/main.go:34 | for canonical numerals the server key is the loader key, so pre-loaded tiles are served without a fetch |
| TileServer.ServerKey | src/osm_tile_server/main.go:34 | computes the server's key; stated by TileServer.LeadingZeroIsAnotherKey, TileServer.SeparatorInSegmentCollides and TileServer.ServerReadsLoaderKeys |
| Search.GetCoordinates | py-src/searchwidget.py:27-35 | 200 with data returns it; 200 with no data is `ValueError`; any other status is an error carrying that status |
| Search.Insert | py-src/searchwidget.py:101 | inserting into a sorted list keeps it sorted and adds exactly that pair |
| Search.Sort | py-src/searchwidget.py:101 | `sort()` gives a sorted permutation of the pairs |
| Search.SortedUnique | py-src/searchwidget.py:101 | the sorted order of `(rank, name)` pairs is unique |
| Search.NamesPermuted | py-src/searchwidget.py:103 | permuting the pairs permutes their names alike, duplicates kept |
| Search.BoxTableKeys | py-src/searchwidget.py:92-98 | the table holds exactly the names of the answer |
| Search.BoxTableLastWins | py-src/searchwidget.py:88-98 | each name maps to the box of its last place |
| Search.FilledUpTo | py-src/searchwidget.py:92-98 | the loop reads every place before the first incomplete one and stops there |
| Search.ChangeEditText | py-src/searchwidget.py:81-110 | text of 3 characters or fewer only hides the list; a failed lookup leaves the table empty and the suggestions unchanged; an incomplete place leaves the places before it filed and the suggestions unchanged; a fully complete answer fills the table and gives one suggestion per place, names kept with multiplicity |
| Search.SuggestionsRanked | py-src/searchwidget.py:99-103 | the suggestions are the names of the pairs in ascending `(rank, name)` order |
| Search.OnSelection | py-src/searchwidget.py:112-129 | a box is emitted exactly when the name has a box of four convertible entries, and then the list is hidden |
| Search.SelectedSuggestionEmits | py-src/searchwidget.py:112-129 | picking a name after a lookup emits the box of that name's last place |

## Left out

- Web-Mercator math (`latLonToTile`, `tileIndexesByCoords`, `moveToCoordinates`) is floating point. The fit test inside `calculateBestZoom` and the loader's corner indices are parameters instead.
- `centerOn` and the cursor × factor re-centring are floating-point view geometry. The visible rectangle after a handler is a parameter.
- Qt scene and animation internals are left out: z-values, opacity effects, animation values and timing, `setScale`, and the scene items a preview or `loadTile` item leaves behind in the scene.
- The `scene.clear()` branch of the py-src zoom handlers depends on floating-point rectangle widths.
- The py-src `updateSceneRect` (width 1.1 × the world) only affects scrolling. It is not part of this model.
- Network clients, server choice and `NetworkAccessManagerPool` are random choice over Qt managers. Their results are given to the handlers as values.
- Goroutines, the semaphore, the WaitGroup and the channel closing are concurrency, not logic. This includes the double `close(tilesChan)` and the fact that the worker's final flush only runs once the channel closes.
- Failures of `pipeline.Exec` in the loader are only logged.
- `\d` is modelled as ASCII digits only. Python also accepts other Unicode decimal digits.
- TileName.CheckAndExtractNumbers: does not model CPython's limit on integer string conversion. Since 3.11 (and 3.10.7), `int()` raises ValueError for a run of more than 4300 digits; the model converts numerals of any length.
- TileName.ExtractsGroupValues: holds on such interpreters only for digit runs of at most 4300 digits, because of the same limit.
- TileName.DecimalRoundTrip: `str(n)` and f-strings raise ValueError on such interpreters for numbers of more than 4300 digits. The model formats every natural number.
- `redis.keys()` is modelled as a given sequence of names. A key deleted between `keys()` and `get()` is the `None` lookup.
- A JSON body that is not a list of objects is left out. Places that are missing a key, or for which `int(place_rank)` raises, are modelled as incomplete places.
- `float()` on bounding-box strings is the parameter `toFloat`.
- UI glue (buttons, focus handling, `resizeEvent` layout, `isNearMapBoundary`) is outside the tile logic.
- Zoom levels are natural numbers, so a negative constructor zoom is not modelled.
- Scene membership is modelled only for src, where the fade-out's removals matter. In the other views the scene is not tracked.

## Findings

| source | as written | input that shows it | evidently intended | confidence | as-written member | corrected member |
|---|---|---|---|---|---|---|
| py-src/osm_graphics_view.py:120 | `range(19, 0, -1)` stops at level 1, while the comment says levels 19 to 0 | a box that fits only at level 0 (wider than the viewport at level 1): the search returns None | try levels 19 down to 0 | high, not executed | WrappingView.BestZoomSkipsZero | WrappingView.CalculateBestZoomCorrected |
| py-src/osm_graphics_view.py:100 | the search result is stored into `self.zoom` even when it is None, while line 135 says the current zoom is kept | the same box: zoom becomes None and `updateSceneRect` raises; until a later box fits some level, `updateTiles` and the zoom handlers raise and every tile reply is dropped | keep the current zoom when nothing fits | high, not executed | WrappingView.WideBoxUnsetsZoom | WrappingView.FitToBoundingBoxCorrected |
| src/osm_tile_server/main.go:68-71 | after a transport error the handler writes 404 and the error text but does not return | a request for an uncached tile while the upstream is unreachable: the empty body is stored under the tile's key, and every later request is served an empty 200 without a fetch | return after the error response, storing nothing | high, not executed | TileServer.UpstreamErrorPoisonsStore | TileServer.ServeTileCorrected |

=== FILE: base.dfy ===
/** Shared vocabulary of the tile viewer model: optional values, raw
    bytes, powers of two and the zoom range. */
module Base {

  datatype Option<+T> = None | Some(value: T)

  /** One octet of an HTTP body or a cache-store value. */
  newtype byte = b: int | 0 <= b < 256

  type Bytes = seq<byte>

  /** How a tile fetch ends (`QNetworkReply`): a network error with its
      code, or the body that was read. */
  datatype Reply = NetworkError(code: int) | Payload(data: Bytes)

  /** No element occurs twice. */
  predicate Distinct<T(==)>(s: seq<T>) {
    forall i, j :: 0 <= i < j < |s| ==> s[i] != s[j]
  }

  /** Two duplicate-free sequences with no common element concatenate to a
      duplicate-free sequence. */
  lemma DistinctConcat<T>(a: seq<T>, b: seq<T>)
    requires Distinct(a) && Distinct(b)
    requires forall x :: x in a ==> x !in b
    ensures Distinct(a + b)
  {
    forall i, j | 0 <= i < j < |a + b|
      ensures (a + b)[i] != (a + b)[j]
    {
      if j >= |a| && i < |a| {
        assert (a + b)[i] in a && (a + b)[j] in b;
      }
    }
  }

  /** Euclidean division is determined by quotient and in-range remainder. */
  lemma DivModUnique(x: int, n: int, q: int, r: int)
    requires n > 0 && 0 <= r < n && x == q * n + r
    ensures x / n == q && x % n == r
  {
    var q', r' := x / n, x % n;
    assert x == q' * n + r';
    var d := q' - q;
    assert d * n == r - r' by {
      assert d * n == q' * n - q * n;
    }
    if d >= 1 {
      assert false;
    } else if d <= -1 {
      assert false;
    }
  }

  lemma MultipleMod(q: int, n: int)
    requires n > 0
    ensures (q * n) % n == 0
  {
    DivModUnique(q * n, n, q, 0);
  }

  lemma DistinctCons<T>(x: T, s: seq<T>)
    ensures Distinct(s) && x !in s ==> Distinct([x] + s)
  {
    if Distinct(s) && x !in s {
      DistinctConcat([x], s);
    }
  }

  lemma NoMemberEmpty<T>(s: seq<T>)
    ensures (forall x :: x !in s) ==> s == []
  {
    if |s| > 0 {
      assert s[0] in s;
    }
  }

  /** In a duplicate-free sequence every member occurs exactly once. */
  lemma {:induction false} DistinctCount<T>(s: seq<T>, x: T)
    requires Distinct(s) && x in s
    ensures multiset(s)[x] == 1
  {
    assert s == [s[0]] + s[1..];
    if s[0] == x {
      assert x !in s[1..];
    } else {
      assert Distinct(s[1..]);
      DistinctCount(s[1..], x);
    }
  }

  /** Edge length of a square tile in scene pixels (`tile_size`). */
  const TileSize: int := 256

  /** Highest zoom level any of the zoom handlers will step to. */
  const MaxZoom: nat := 19

  /** 2^n: the number of tile columns (and rows) at zoom level n. */
  function Pow2(n: nat): (r: nat)
    ensures r >= 1
  {
    if n == 0 then 1 else 2 * Pow2(n - 1)
  }

  /** The zoom a wheel turn asks for, shared by the three viewers:
      `min(zoom + 1, 19)` for a positive wheel delta, `max(zoom - 1, 0)`
      otherwise. */
  function WheelTarget(z: nat, delta: int): nat {
    if delta > 0 then (if z + 1 < MaxZoom then z + 1 else MaxZoom)
    else (if z - 1 > 0 then z - 1 else 0)
  }
}

=== FILE: box_loader.dfy ===
/** The bounding-box cache loader (example/load_cache/main.go): the tiles of
    a box at one zoom level, the per-tile decision to skip, fetch or enqueue,
    and the worker that writes enqueued tiles to the store in batches. */
module BoxLoader {
  import opened Base
  import TileName

  /** A tile column and row, `[]int{x, y}`. */
  type Tile = (int, int)

  function Min(a: int, b: int): int {
    if a <= b then a else b
  }

  function Max(a: int, b: int): int {
    if a >= b then a else b
  }

  /** Go's `min(a, b, c, d)`: one of the four, and no larger than any. */
  function Min4(a: int, b: int, c: int, d: int): (m: int)
    ensures m == a || m == b || m == c || m == d
    ensures m <= a && m <= b && m <= c && m <= d
  {
    Min(Min(a, b), Min(c, d))
  }

  /** Go's `max(a, b, c, d)`: one of the four, and no smaller than any. */
  function Max4(a: int, b: int, c: int, d: int): (m: int)
    ensures m == a || m == b || m == c || m == d
    ensures m >= a && m >= b && m >= c && m >= d
  {
    Max(Max(a, b), Max(c, d))
  }

  /** The tile indices of the four corners of the box, as computed from
      latitude and longitude. */
  datatype Corners = Corners(c1: Tile, c2: Tile, c3: Tile, c4: Tile)

  /** Whether tile `(a, b)` lies inside the world at `zoom` and between the
      smallest and largest corner index in each direction. */
  predicate InBox(c: Corners, zoom: nat, a: int, b: int) {
    && 0 <= a <= Pow2(zoom) - 1
    && 0 <= b <= Pow2(zoom) - 1
    && Min4(c.c1.0, c.c2.0, c.c3.0, c.c4.0) <= a <= Max4(c.c1.0, c.c2.0, c.c3.0, c.c4.0)
    && Min4(c.c1.1, c.c2.1, c.c3.1, c.c4.1) <= b <= Max4(c.c1.1, c.c2.1, c.c3.1, c.c4.1)
  }

  /** Column-major order: by column, then by row. */
  predicate Before(s: Tile, t: Tile) {
    s.0 < t.0 || (s.0 == t.0 && s.1 < t.1)
  }

  /** The number of indices in the inclusive range `lo..hi`. */
  function Count(lo: int, hi: int): nat {
    if lo <= hi then hi - lo + 1 else 0
  }

  /** The inner loop: column `x`, rows `ylo..yhi` ascending. */
  method Column(x: int, ylo: int, yhi: int) returns (col: seq<Tile>)
    ensures |col| == Count(ylo, yhi)
    ensures forall i :: 0 <= i < |col| ==> col[i] == (x, ylo + i)
  {
    col := [];
    var y := ylo;
    while y <= yhi
      invariant ylo <= y && (y == ylo || y <= yhi + 1)
      invariant |col| == y - ylo
      invariant forall i :: 0 <= i < |col| ==> col[i] == (x, ylo + i)
      decreases yhi - y
    {
      col := col + [(x, y)];
      y := y + 1;
    }
  }

  /** The outer loop's invariant for columns `xlo..x-1` of rows `ylo..yhi`. */
  predicate GridUpTo(tiles: seq<Tile>, xlo: int, x: int, ylo: int, yhi: int) {
    && (forall i :: 0 <= i < |tiles| ==> xlo <= tiles[i].0 < x && ylo <= tiles[i].1 <= yhi)
    && (forall a, b :: xlo <= a < x && ylo <= b <= yhi ==> (a, b) in tiles)
    && (forall i, j :: 0 <= i < j < |tiles| ==> Before(tiles[i], tiles[j]))
  }

  /** Appending column `x` extends the invariant by one column. */
  lemma GridStep(tiles: seq<Tile>, col: seq<Tile>, xlo: int, x: int, ylo: int, yhi: int)
    requires xlo <= x
    requires GridUpTo(tiles, xlo, x, ylo, yhi)
    requires |col| == Count(ylo, yhi)
    requires forall i :: 0 <= i < |col| ==> col[i] == (x, ylo + i)
    ensures GridUpTo(tiles + col, xlo, x + 1, ylo, yhi)
  {
    var next := tiles + col;
    forall a, b | xlo <= a <= x && ylo <= b <= yhi
      ensures (a, b) in next
    {
      if a == x {
        assert next[|tiles| + b - ylo] == (x, b);
      } else {
        assert (a, b) in tiles;
      }
    }
    forall i, j | 0 <= i < j < |next|
      ensures Before(next[i], next[j])
    {
      if j >= |tiles| && i < |tiles| {
        assert next[i] == tiles[i] && next[j] == col[j - |tiles|];
      } else if i >= |tiles| {
        assert next[i] == col[i - |tiles|] && next[j] == col[j - |tiles|];
      }
    }
  }

  /** The two nested loops: every tile of `xlo..xhi` by `ylo..yhi`, each
      once, in column-major order. */
  method Grid(xlo: int, xhi: int, ylo: int, yhi: int) returns (tiles: seq<Tile>)
    ensures forall a, b :: (a, b) in tiles <==> xlo <= a <= xhi && ylo <= b <= yhi
    ensures forall i, j :: 0 <= i < j < |tiles| ==> Before(tiles[i], tiles[j])
    ensures |tiles| == Count(xlo, xhi) * Count(ylo, yhi)
  {
    tiles := [];
    var x := xlo;
    while x <= xhi
      invariant xlo <= x && (x == xlo || x <= xhi + 1)
      invariant GridUpTo(tiles, xlo, x, ylo, yhi)
      invariant |tiles| == (x - xlo) * Count(ylo, yhi)
      decreases xhi - x
    {
      var col := Column(x, ylo, yhi);
      GridStep(tiles, col, xlo, x, ylo, yhi);
      assert (x + 1 - xlo) * Count(ylo, yhi) == (x - xlo) * Count(ylo, yhi) + Count(ylo, yhi);
      tiles := tiles + col;
      x := x + 1;
    }
    if xlo > xhi {
      assert tiles == [];
    }
  }

  /** `tilesForBoundingBox` from the corner indices: the bounds are the
      minimum and maximum corner index, clamped to `[0, 2^zoom - 1]`, and the
      tiles are enumerated column by column, rows ascending in each. The
      result holds exactly the tiles in the box, each once, in order, and
      its length is the product of the clamped ranges. */
  method TilesForBoundingBox(c: Corners, zoom: nat) returns (tiles: seq<Tile>)
    ensures forall a, b :: (a, b) in tiles <==> InBox(c, zoom, a, b)
    ensures forall i, j :: 0 <= i < j < |tiles| ==> Before(tiles[i], tiles[j])
    ensures Distinct(tiles)
    ensures |tiles| == Count(Max(0, Min4(c.c1.0, c.c2.0, c.c3.0, c.c4.0)), Min(Pow2(zoom) - 1, Max4(c.c1.0, c.c2.0, c.c3.0, c.c4.0)))
                     * Count(Max(0, Min4(c.c1.1, c.c2.1, c.c3.1, c.c4.1)), Min(Pow2(zoom) - 1, Max4(c.c1.1, c.c2.1, c.c3.1, c.c4.1)))
  {
    var maxIndex := Pow2(zoom) - 1;
    var xlo := Max(0, Min4(c.c1.0, c.c2.0, c.c3.0, c.c4.0));
    var xhi := Min(maxIndex, Max4(c.c1.0, c.c2.0, c.c3.0, c.c4.0));
    var ylo := Max(0, Min4(c.c1.1, c.c2.1, c.c3.1, c.c4.1));
    var yhi := Min(maxIndex, Max4(c.c1.1, c.c2.1, c.c3.1, c.c4.1));
    tiles := Grid(xlo, xhi, ylo, yhi);
    forall i, j | 0 <= i < j < |tiles|
      ensures tiles[i] != tiles[j]
    {
      assert Before(tiles[i], tiles[j]);
    }
  }

  /** The store key the loader uses: `fmt.Sprintf("tile_%d_%d_%d", x, y, zoom)`. */
  function LoaderKey(x: nat, y: nat, zoom: nat): string {
    "tile_" + TileName.Decimal(x) + "_" + TileName.Decimal(y) + "_" + TileName.Decimal(zoom)
  }

  /** The loader's keys are not tile names of the Python viewers:
      `check_and_extract_numbers` rejects every one of them, so what the
      loader stores is never read by `loadCache` or `loadTile`. */
  lemma LoaderKeysAreNotTileNames(x: nat, y: nat, zoom: nat)
    ensures TileName.CheckAndExtractNumbers(LoaderKey(x, y, zoom)) == (false, [])
    ensures forall a: int, b: int, z: int :: LoaderKey(x, y, zoom) != TileName.FormatTileName(a, b, z)
  {
    TileName.RejectsNonDigitStart(LoaderKey(x, y, zoom));
    forall a: int, b: int, z: int
      ensures LoaderKey(x, y, zoom) != TileName.FormatTileName(a, b, z)
    {
      var name := TileName.FormatTileName(a, b, z);
      assert name[0] == '-' || TileName.IsDigit(name[0]);
    }
  }

  /** The answer of the store to `Get(tileName)`. */
  datatype Lookup = Present | Absent | LookupFailed

  /** The answer of the HTTP client: a transport error, or a response of
      any status with its body. */
  datatype Fetch = HttpFailed | Response(status: int, body: Bytes)

  /** What one tile's goroutine does. */
  datatype Outcome = Skipped | FetchFailed | Enqueued(key: string, data: Bytes)

  /** One tile's goroutine: the lookup decides whether to fetch at all;
      `fetch` is what the GET returns if it is issued. Only a missing key is
      fetched; a transport error enqueues nothing; any response is enqueued
      under the loader key with its body, whatever its status. */
  function TileTask(x: nat, y: nat, zoom: nat, lookup: Lookup, fetch: Fetch): (o: Outcome)
    ensures o.Skipped? <==> lookup != Absent
    ensures o.FetchFailed? <==> lookup == Absent && fetch.HttpFailed?
    ensures o.Enqueued? <==> lookup == Absent && fetch.Response?
    ensures o.Enqueued? ==> o.key == LoaderKey(x, y, zoom) && o.data == fetch.body
  {
    if lookup != Absent then Skipped
    else
      match fetch
      case HttpFailed => FetchFailed
      case Response(_, body) => Enqueued(LoaderKey(x, y, zoom), body)
  }

  /** No status check: a 404 page is stored as if it were the tile, and a
      lookup error is treated like a present key. */
  lemma ErrorPagesAreStored(x: nat, y: nat, zoom: nat, body: Bytes)
    ensures TileTask(x, y, zoom, Absent, Response(404, body)) == Enqueued(LoaderKey(x, y, zoom), body)
    ensures TileTask(x, y, zoom, LookupFailed, Response(200, body)) == TileTask(x, y, zoom, Present, Response(200, body))
  {
  }

  /** An enqueued write: key and value. */
  type Entry = (string, Bytes)

  /** Commands sent per pipeline flush. */
  const BatchSize: nat := 100

  function Flatten(batches: seq<seq<Entry>>): seq<Entry> {
    if |batches| == 0 then [] else Flatten(batches[..|batches| - 1]) + batches[|batches| - 1]
  }

  /** The pipeline worker over the entries received, in order: each entry is
      queued; when 100 are queued they are flushed and the counter reset;
      whatever remains (if anything) is flushed at the end. The flushes
      together send every entry once, in order; all but the last hold
      exactly 100, the last between 1 and 100, and there are
      `ceil(n / 100)` of them. */
  method Worker(entries: seq<Entry>) returns (batches: seq<seq<Entry>>)
    ensures Flatten(batches) == entries
    ensures forall i :: 0 <= i < |batches| ==> 0 < |batches[i]| <= BatchSize
    ensures forall i :: 0 <= i < |batches| - 1 ==> |batches[i]| == BatchSize
    ensures |batches| == (|entries| + BatchSize - 1) / BatchSize
  {
    batches := [];
    var pending: seq<Entry> := [];
    var counter := 0;
    for i := 0 to |entries|
      invariant Flatten(batches) + pending == entries[..i]
      invariant counter == |pending| < BatchSize
      invariant forall j :: 0 <= j < |batches| ==> |batches[j]| == BatchSize
      invariant |batches| * BatchSize + counter == i
    {
      pending := pending + [entries[i]];
      counter := counter + 1;
      assert entries[..i + 1] == entries[..i] + [entries[i]];
      if counter >= BatchSize {
        assert Flatten(batches + [pending]) == Flatten(batches) + pending by {
          assert (batches + [pending])[..|batches|] == batches;
        }
        batches := batches + [pending];
        pending := [];
        counter := 0;
      }
    }
    assert entries[..|entries|] == entries;
    var full := |batches|;
    if counter > 0 {
      assert Flatten(batches + [pending]) == Flatten(batches) + pending by {
        assert (batches + [pending])[..|batches|] == batches;
      }
      batches := batches + [pending];
      DivModUnique(|entries| + BatchSize - 1, BatchSize, full + 1, counter - 1);
    } else {
      assert pending == [];
      DivModUnique(|entries| + BatchSize - 1, BatchSize, full, BatchSize - 1);
    }
  }
}

=== FILE: cached_view.dfy ===
/** The clipping viewer backed by a key-value store
    (example/osm_map_view.py): tiles are keyed `(zoom, x, y)`, columns and
    rows outside the world are skipped, `loadTile` reads through the store
    before fetching, a decodable reply is written back to it, and a zoom step
    hands the old tiles to a scaling group whose animation may still run. */
module CachedView {
  import opened Base
  import opened Viewport
  import TileName

  /** A pixmap item: the bytes it was built from and its scene position. */
  datatype Item = Item(data: Bytes, px: int, py: int)

  /** `_zoom_anim`: no animation, or the state of the one referenced. */
  datatype Anim = NoAnim | Running | Stopped

  /** `zoom`, the `tiles` dictionary, the key-value store, the animated group
      of old tiles (`old_tiles_group`) and the animation. */
  datatype View = View(zoom: nat, tiles: map<GridKey, Item>, store: map<string, Bytes>,
                       group: Option<set<Item>>, anim: Anim)

  /** A handler's result: the new state and the fetches it started. */
  datatype Step = Step(view: View, fetches: seq<GridKey>)

  /** The store key of a tile: `f"{x}_{y}_{z}_tile"`. */
  function KeyName(k: GridKey): string {
    TileName.FormatTileName(k.x, k.y, k.zoom)
  }

  /** The item for tile `k` built from bytes `data`, at `(x * 256, y * 256)`. */
  function TileItem(k: GridKey, data: Bytes): Item {
    Item(data, k.x * TileSize, k.y * TileSize)
  }

  /** `loadTile`: a stored tile is filed at once from the stored bytes,
      whether or not they decode; any other tile is fetched and nothing is
      filed. */
  function LoadTile(v: View, k: GridKey): (s: Step)
    ensures s.fetches == [] <==> KeyName(k) in v.store
    ensures s.fetches != [] ==> s.fetches == [k] && s.view == v
    ensures KeyName(k) in v.store ==> k in s.view.tiles && s.view.tiles[k] == TileItem(k, v.store[KeyName(k)])
    ensures s.view == v.(tiles := s.view.tiles)
    ensures forall k' :: k' != k ==> (k' in s.view.tiles <==> k' in v.tiles)
    ensures forall k' :: k' != k && k' in s.view.tiles ==> s.view.tiles[k'] == v.tiles[k']
  {
    var name := KeyName(k);
    if name in v.store then Step(v.(tiles := v.tiles[k := TileItem(k, v.store[name])]), [])
    else Step(v, [k])
  }

  /** The inner test of `updateTiles`: only a key not yet filed is loaded. */
  function LoadIfMissing(v: View, k: GridKey): Step {
    if k in v.tiles then Step(v, []) else LoadTile(v, k)
  }

  /** `updateTiles`'s loop over the scanned cells, in order. */
  function Scan(v: View, cells: seq<GridKey>): (s: Step)
    ensures s.view == v.(tiles := s.view.tiles)
    ensures forall k :: k in s.fetches <==> k in cells && k !in v.tiles && KeyName(k) !in v.store
    ensures Distinct(cells) ==> Distinct(s.fetches)
    ensures forall k :: k in s.view.tiles <==> k in v.tiles || (k in cells && KeyName(k) in v.store)
    ensures forall k :: k in v.tiles ==> s.view.tiles[k] == v.tiles[k]
    ensures forall k :: k in s.view.tiles && k !in v.tiles ==> s.view.tiles[k] == TileItem(k, v.store[KeyName(k)])
    decreases |cells|
  {
    if |cells| == 0 then Step(v, [])
    else
      var first := LoadIfMissing(v, cells[0]);
      var rest := Scan(first.view, cells[1..]);
      assert forall c :: c in cells <==> c == cells[0] || c in cells[1..];
      assert Distinct(cells) ==> cells[0] !in cells[1..] && Distinct(cells[1..]);
      assert Distinct(cells) ==> forall c :: c in first.fetches ==> c !in rest.fetches;
      assert Distinct(first.fetches);
      if Distinct(cells) then
        DistinctConcat(first.fetches, rest.fetches);
        Step(rest.view, first.fetches + rest.fetches)
      else
        Step(rest.view, first.fetches + rest.fetches)
  }

  /** `updateTiles`: scan the clipped cells of the visible rectangle. */
  function UpdateTiles(v: View, r: Rect): Step {
    Scan(v, ClippedView(v.zoom, r))
  }

  /** Every filed key has the current zoom. */
  predicate AtCurrentZoom(v: View) {
    forall k :: k in v.tiles ==> k.zoom == v.zoom
  }

  /** What `updateTiles` does: it fetches, each once, exactly the visible
      in-world cells neither filed nor stored; it files exactly the visible
      in-world cells found in the store, from the stored bytes; nothing else
      changes, and filing keys of the current zoom keeps the zoom invariant. */
  lemma UpdateTilesFetches(v: View, r: Rect, k: GridKey)
    ensures var s := UpdateTiles(v, r);
      && Distinct(s.fetches)
      && (k in s.fetches <==> InClippedView(v.zoom, ColumnSpan(r), RowSpan(r), k) && k !in v.tiles && KeyName(k) !in v.store)
      && (k in s.view.tiles && k !in v.tiles <==> InClippedView(v.zoom, ColumnSpan(r), RowSpan(r), k) && k !in v.tiles && KeyName(k) in v.store)
      && s.view == v.(tiles := s.view.tiles)
      && (AtCurrentZoom(v) ==> AtCurrentZoom(s.view))
  {
  }

  /** A stored tile is filed even when its bytes do not decode: the read
      path never checks them. */
  lemma StoredBytesNotChecked(v: View, k: GridKey, decodes: Bytes -> bool)
    requires KeyName(k) in v.store && !decodes(v.store[KeyName(k)])
    ensures var s := LoadTile(v, k);
      s.fetches == [] && k in s.view.tiles && !decodes(s.view.tiles[k].data)
  {
  }

  /** `handleTileReply` for the fetch of key `k`: a network error or
      undecodable bytes change nothing; otherwise the item is filed under
      exactly `k` — at whatever zoom `k` has — and the bytes are written to
      the store under the key's name. */
  function HandleTileReply(v: View, k: GridKey, reply: Reply, decodes: Bytes -> bool): (r: View)
    ensures reply.NetworkError? || !decodes(reply.data) ==> r == v
    ensures reply.Payload? && decodes(reply.data) ==>
      && r.zoom == v.zoom && r.group == v.group && r.anim == v.anim
      && r.tiles == v.tiles[k := TileItem(k, reply.data)]
      && r.store == v.store[KeyName(k) := reply.data]
  {
    match reply
    case NetworkError(_) => v
    case Payload(data) =>
      if !decodes(data) then v
      else v.(tiles := v.tiles[k := TileItem(k, data)], store := v.store[KeyName(k) := data])
  }

  /** With no zoom guard, a reply that arrives after a zoom step files its
      tile under the old zoom, breaking the invariant `updateTiles` keeps. */
  lemma LateReplyBreaksZoomInvariant(v: View, k: GridKey, data: Bytes, decodes: Bytes -> bool)
    requires k.zoom != v.zoom && decodes(data)
    ensures !AtCurrentZoom(HandleTileReply(v, k, Payload(data), decodes))
  {
    assert k in HandleTileReply(v, k, Payload(data), decodes).tiles;
  }

  /** Write-through then read-through: once a reply for `k` is written, a
      later `loadTile` of `k` — whatever is filed by then — is served from the
      store with the same bytes and fetches nothing. */
  lemma WrittenTileIsServed(v: View, k: GridKey, data: Bytes, decodes: Bytes -> bool, tiles: map<GridKey, Item>)
    requires decodes(data)
    ensures var w := HandleTileReply(v, k, Payload(data), decodes).(tiles := tiles);
      var s := LoadTile(w, k);
      s.fetches == [] && s.view.tiles[k] == TileItem(k, data)
  {
  }

  /** `clearOldTilesGroup`: drops the group (and with it the old items) and
      forgets the animation. */
  function ClearOldTilesGroup(v: View): (r: View)
    ensures r.group == None && r.anim == NoAnim
    ensures r.zoom == v.zoom && r.tiles == v.tiles && r.store == v.store
  {
    v.(group := None, anim := NoAnim)
  }

  lemma ClearOldTilesGroupIdempotent(v: View)
    ensures ClearOldTilesGroup(ClearOldTilesGroup(v)) == ClearOldTilesGroup(v)
    ensures v.group == None && v.anim == NoAnim ==> ClearOldTilesGroup(v) == v
  {
  }

  /** A group exists exactly while its animation runs; no stopped animation
      is left referenced. */
  predicate AnimConsistent(v: View) {
    v.anim != Stopped && (v.group.Some? <==> v.anim == Running)
  }

  /** `wheelEvent`: an unchanged zoom returns early. Otherwise a running
      animation is stopped and its group cleared; if any tiles are filed they
      become the new group under a new running animation; then the zoom is
      committed, `tiles` cleared and `updateTiles` run over the re-centred
      rectangle `r`: every visible cell of the new level is filed from the
      store when stored there and fetched, once, otherwise. */
  function WheelEvent(v: View, delta: int, r: Rect): (s: Step)
    ensures s.view.zoom == v.zoom ==> s == Step(v, [])
    ensures s.view.zoom != v.zoom ==>
      && s.view.zoom == WheelTarget(v.zoom, delta)
      && s.view.store == v.store
      && AtCurrentZoom(s.view)
      && (v.tiles != map[] ==> s.view.group == Some(v.tiles.Values) && s.view.anim == Running)
      && (v.tiles == map[] && v.anim == Running ==> s.view.group == None && s.view.anim == NoAnim)
      && (v.tiles == map[] && v.anim != Running ==> s.view.group == v.group && s.view.anim == v.anim)
    ensures s.view.zoom != v.zoom ==>
      && Distinct(s.fetches)
      && (forall k :: k in s.fetches <==>
            InClippedView(s.view.zoom, ColumnSpan(r), RowSpan(r), k) && KeyName(k) !in v.store)
      && (forall k :: k in s.view.tiles <==>
            InClippedView(s.view.zoom, ColumnSpan(r), RowSpan(r), k) && KeyName(k) in v.store)
      && (forall k :: k in s.view.tiles ==> s.view.tiles[k] == TileItem(k, v.store[KeyName(k)]))
  {
    var target := WheelTarget(v.zoom, delta);
    if target == v.zoom then Step(v, [])
    else
      var stopped := if v.anim == Running then ClearOldTilesGroup(v) else v;
      var grouped := if v.tiles != map[] then stopped.(group := Some(v.tiles.Values), anim := Running) else stopped;
      UpdateTiles(grouped.(zoom := target, tiles := map[]), r)
  }

  /** The animation's `finished` signal: `clearOldTilesGroup` on the
      animation that ran to its end (a stopped animation does not emit it). */
  function AnimationFinished(v: View): (r: View)
    ensures v.anim == Running ==> r.group == None && r.anim == NoAnim
    ensures v.anim != Running ==> r == v
    ensures r.tiles == v.tiles && r.zoom == v.zoom && r.store == v.store
  {
    if v.anim == Running then ClearOldTilesGroup(v) else v
  }

  /** The zoom step stays in `[0, 19]` and moves by exactly one level. */
  lemma WheelStepsOneLevel(v: View, delta: int, r: Rect)
    requires v.zoom <= MaxZoom
    ensures var s := WheelEvent(v, delta, r);
      && s.view.zoom <= MaxZoom
      && (s.view.zoom != v.zoom ==> s.view.zoom == v.zoom + 1 || s.view.zoom + 1 == v.zoom)
      && (delta > 0 && v.zoom < MaxZoom ==> s.view.zoom == v.zoom + 1)
      && (delta <= 0 && v.zoom > 0 ==> s.view.zoom + 1 == v.zoom)
  {
  }

  /** The group and the animation stay in step under every handler. */
  lemma HandlersKeepAnimConsistent(v: View, delta: int, r: Rect, k: GridKey, reply: Reply, decodes: Bytes -> bool)
    requires AnimConsistent(v)
    ensures AnimConsistent(WheelEvent(v, delta, r).view)
    ensures AnimConsistent(UpdateTiles(v, r).view)
    ensures AnimConsistent(HandleTileReply(v, k, reply, decodes))
    ensures AnimConsistent(AnimationFinished(v))
    ensures AnimConsistent(ClearOldTilesGroup(v))
  {
  }

  /** A zoom step leaves only tiles of the new zoom filed, so the zoom
      invariant holds again after every zoom step whatever came before. */
  lemma WheelRestoresZoomInvariant(v: View, delta: int, r: Rect)
    ensures var s := WheelEvent(v, delta, r);
      s.view.zoom != v.zoom ==> AtCurrentZoom(s.view)
  {
  }

  /** A tile coordinate triple `(x, y, z)` as `loadCache` keys it. */
  type Triple = (nat, nat, nat)

  /** The triple a store key names, if it is a tile name. */
  function Parsed(name: string): (t: Option<Triple>)
    ensures t.Some? <==> TileName.CheckAndExtractNumbers(name).0
  {
    var (ok, numbers) := TileName.CheckAndExtractNumbers(name);
    if ok then Some((numbers[0], numbers[1], numbers[2])) else None
  }

  /** `redis_connection.get(name)`: the stored bytes, or None. */
  function Lookup(store: map<string, Bytes>, name: string): Option<Bytes> {
    if name in store then Some(store[name]) else None
  }

  /** `loadCache` over the store's keys in the order listed, with `parse`
      recognising tile names: every tile name's bytes are recorded under its
      triple (a later name for the same triple overwrites an earlier one);
      other keys are skipped. */
  function LoadCacheWith(parse: string -> Option<Triple>, names: seq<string>, store: map<string, Bytes>): map<Triple, Option<Bytes>>
    decreases |names|
  {
    if |names| == 0 then map[]
    else
      var c := LoadCacheWith(parse, names[..|names| - 1], store);
      match parse(names[|names| - 1])
      case None => c
      case Some(t) => c[t := Lookup(store, names[|names| - 1])]
  }

  /** `loadCache`: tile names are recognised by `check_and_extract_numbers`. */
  function LoadCache(names: seq<string>, store: map<string, Bytes>): map<Triple, Option<Bytes>> {
    LoadCacheWith(Parsed, names, store)
  }

  /** The triples `loadCache` records are exactly those of the tile names
      among the keys. */
  lemma {:induction false} LoadCacheKeys(parse: string -> Option<Triple>, names: seq<string>, store: map<string, Bytes>, t: Triple)
    ensures t in LoadCacheWith(parse, names, store) <==> exists i :: 0 <= i < |names| && parse(names[i]) == Some(t)
    decreases |names|
  {
    if |names| > 0 {
      var init := names[..|names| - 1];
      LoadCacheKeys(parse, init, store, t);
      if exists i :: 0 <= i < |names| && parse(names[i]) == Some(t) {
        var i :| 0 <= i < |names| && parse(names[i]) == Some(t);
        if i < |init| {
          assert init[i] == names[i];
        }
      }
      if exists i :: 0 <= i < |init| && parse(init[i]) == Some(t) {
        var i :| 0 <= i < |init| && parse(init[i]) == Some(t);
        assert names[i] == init[i];
      }
    }
  }

  /** Last write wins: a tile name not followed by another name of the same
      tile determines the bytes recorded for its triple. */
  lemma {:induction false} LoadCacheLastWins(parse: string -> Option<Triple>, names: seq<string>, store: map<string, Bytes>, i: nat)
    requires i < |names| && parse(names[i]).Some?
    requires forall j :: i < j < |names| ==> parse(names[j]) != parse(names[i])
    ensures parse(names[i]).value in LoadCacheWith(parse, names, store)
    ensures LoadCacheWith(parse, names, store)[parse(names[i]).value] == Lookup(store, names[i])
    decreases |names|
  {
    var init := names[..|names| - 1];
    if i < |names| - 1 {
      assert init[i] == names[i];
      forall j | i < j < |init|
        ensures parse(init[j]) != parse(init[i])
      {
        assert init[j] == names[j];
      }
      LoadCacheLastWins(parse, init, store, i);
    }
  }

  /** A name written by the reply handler comes back from `loadCache` under
      the tile's own coordinates, with the stored bytes, unless a later key
      names the same tile. */
  lemma WrittenNameIsLoaded(names: seq<string>, store: map<string, Bytes>, i: nat, x: nat, y: nat, z: nat)
    requires i < |names| && names[i] == TileName.FormatTileName(x, y, z)
    requires forall j :: i < j < |names| ==> Parsed(names[j]) != Some((x, y, z))
    ensures (x, y, z) in LoadCache(names, store)
    ensures LoadCache(names, store)[(x, y, z)] == Lookup(store, TileName.FormatTileName(x, y, z))
  {
    TileName.TileNameRoundTrip(x, y, z);
    assert Parsed(names[i]) == Some((x, y, z));
    LoadCacheLastWins(Parsed, names, store, i);
  }
}

=== FILE: scene_view.dfy ===
/** The wrapping map view with fade-out (src/osm_graphics_view.py): no
    preview tiles, so nothing marks a fetch in flight; a zoom step snapshots
    the filed items, clears `tiles`, and hands the snapshot to a fade-out
    whose end removes exactly those items from the scene. */
module SceneView {
  import opened Base
  import opened Viewport

  /** A pixmap item: `serial` stands for object identity (two items built
      from the same bytes are still different scene objects). */
  datatype Item = Item(serial: nat, data: Bytes, px: int, py: int)

  /** `zoom`, the `tiles` dictionary, the items on the scene, and the serial
      the next item will get. */
  datatype View = View(zoom: nat, tiles: map<PlacedKey, Item>, scene: set<Item>, nextSerial: nat)

  /** A handler's result: the new state, the fetches it started, and the
      items it handed to a fade-out (`old_items`). */
  datatype Step = Step(view: View, fetches: seq<PlacedKey>, fading: set<Item>)

  /** Filed items are on the scene and every item's serial was handed out. */
  predicate Wellformed(v: View) {
    && (forall k :: k in v.tiles ==> v.tiles[k] in v.scene)
    && (forall it :: it in v.scene ==> it.serial < v.nextSerial)
  }

  /** `updateSceneRect`: the scene is the world at the current zoom,
      `(0, 0, world_width, world_width)`. */
  function SceneRect(zoom: nat): Rect {
    var w := (TileSize * Pow2(zoom)) as real;
    Rect(0.0, 0.0, w, w)
  }

  /** The scene is square and holds exactly the in-world tiles: a tile
      lies inside it iff its column and row are in `[0, 2^zoom)`. Wrapped
      copies (non-zero offset) therefore lie outside it; the scene is not
      widened to hold them. */
  lemma SceneRectIsWorld(zoom: nat, col: int, row: int)
    ensures SceneRect(zoom).right - SceneRect(zoom).left == SceneRect(zoom).bottom - SceneRect(zoom).top
    ensures var s := SceneRect(zoom);
      (&& s.left <= (col * TileSize) as real && ((col + 1) * TileSize) as real <= s.right
       && s.top <= (row * TileSize) as real && ((row + 1) * TileSize) as real <= s.bottom)
      <==> 0 <= col < Pow2(zoom) && 0 <= row < Pow2(zoom)
  {
    var n := Pow2(zoom);
    assert (TileSize * n) as real == (n * TileSize) as real;
    if col >= n {
      assert (col + 1) * TileSize > n * TileSize;
    }
    if row >= n {
      assert (row + 1) * TileSize > n * TileSize;
    }
    if col < n {
      assert (col + 1) * TileSize <= n * TileSize;
    }
    if row < n {
      assert (row + 1) * TileSize <= n * TileSize;
    }
  }

  /** The cells of `cells` not yet filed, in scan order. */
  function Missing(tiles: map<PlacedKey, Item>, cells: seq<PlacedKey>): (r: seq<PlacedKey>)
    ensures forall k :: k in r <==> k in cells && k !in tiles
    ensures Distinct(cells) ==> Distinct(r)
  {
    if |cells| == 0 then []
    else
      var rest := Missing(tiles, cells[1..]);
      assert forall c :: c in cells <==> c == cells[0] || c in cells[1..];
      assert Distinct(cells) ==> cells[0] !in cells[1..] && Distinct(cells[1..]);
      if cells[0] in tiles then rest
      else
        DistinctCons(cells[0], rest);
        [cells[0]] + rest
  }

  /** `updateTiles`: one `loadTile` per scanned cell whose key is not filed.
      `loadTile` records nothing, so the view itself does not change. */
  function UpdateTiles(v: View, r: Rect): seq<PlacedKey> {
    Missing(v.tiles, WrappedView(v.zoom, r))
  }

  /** What `updateTiles` fetches: the visible in-world cells not yet filed,
      each once, with `0 <= x < 2^zoom`, offset a whole number of worlds and
      `x + offset` the scanned scene column. */
  lemma UpdateTilesFetches(v: View, r: Rect, k: PlacedKey)
    ensures Distinct(UpdateTiles(v, r))
    ensures k in UpdateTiles(v, r) <==> InWrappedView(v.zoom, ColumnSpan(r), RowSpan(r), k) && k !in v.tiles
  {
  }

  /** No in-flight dedup: until a reply is filed, every `updateTiles` over the
      same rectangle fetches the same keys again. */
  lemma NoInFlightDedup(v: View, r: Rect, k: PlacedKey)
    requires k in UpdateTiles(v, r)
    ensures var first := UpdateTiles(v, r);
      var second := UpdateTiles(v, r);
      multiset(first + second)[k] == 2
  {
    DistinctCount(UpdateTiles(v, r), k);
  }

  /** `handleTileReply` for the fetch of key `k`: stale-zoom replies,
      network errors and undecodable bytes change nothing; otherwise a new
      item at `((x + offset) * 256, y * 256)` is added to the scene and filed
      under exactly `k`. */
  function HandleTileReply(v: View, k: PlacedKey, reply: Reply, decodes: Bytes -> bool): (r: View)
    ensures r.zoom == v.zoom
    ensures k.zoom != v.zoom || reply.NetworkError? || !decodes(reply.data) ==> r == v
    ensures k.zoom == v.zoom && reply.Payload? && decodes(reply.data) ==>
      && k in r.tiles
      && r.tiles[k].data == reply.data
      && r.tiles[k].px == (k.x + k.offset) * TileSize && r.tiles[k].py == k.y * TileSize
      && (Wellformed(v) ==> r.tiles[k] !in v.scene)
      && r.scene == v.scene + {r.tiles[k]}
    ensures forall k' :: k' != k ==> (k' in r.tiles <==> k' in v.tiles)
    ensures forall k' :: k' != k && k' in r.tiles ==> r.tiles[k'] == v.tiles[k']
    ensures Wellformed(v) ==> Wellformed(r)
  {
    if k.zoom != v.zoom then v
    else
      match reply
      case NetworkError(_) => v
      case Payload(data) =>
        if !decodes(data) then v
        else
          var it := Item(v.nextSerial, data, SceneColumn(k) * TileSize, k.y * TileSize);
          assert Wellformed(v) ==> it !in v.scene;
          View(v.zoom, v.tiles[k := it], v.scene + {it}, v.nextSerial + 1)
  }

  /** `wheelEvent`: a positive delta steps up and any other steps down,
      clamped to `[0, 19]`; an unchanged zoom returns early. Otherwise the filed items are snapshotted, `tiles` is
      cleared, the new zoom committed and `updateTiles` run over the
      re-centred rectangle `r`; the snapshot goes to the fade-out. */
  function WheelEvent(v: View, delta: int, r: Rect): (s: Step)
    ensures v.zoom <= MaxZoom ==> s.view.zoom <= MaxZoom
    ensures s.view.zoom == v.zoom ==> s == Step(v, [], {})
    ensures v.zoom <= MaxZoom && s.view.zoom != v.zoom ==>
      s.view.zoom == v.zoom + 1 || s.view.zoom + 1 == v.zoom
    ensures delta > 0 && v.zoom < MaxZoom ==> s.view.zoom == v.zoom + 1
    ensures delta > 0 && v.zoom > MaxZoom ==> s.view.zoom == MaxZoom
    ensures delta <= 0 && v.zoom > 0 ==> s.view.zoom + 1 == v.zoom
    ensures (delta > 0 && v.zoom == MaxZoom) || (delta <= 0 && v.zoom == 0) ==> s == Step(v, [], {})
    ensures s.view.zoom != v.zoom ==>
      && s.view.tiles == map[]
      && s.fading == v.tiles.Values
      && s.view.scene == v.scene
      && s.fetches == UpdateTiles(s.view, r)
  {
    var target := WheelTarget(v.zoom, delta);
    if target == v.zoom then Step(v, [], {})
    else
      var next := View(target, map[], v.scene, v.nextSerial);
      Step(next, UpdateTiles(next, r), v.tiles.Values)
  }

  /** `cleanupOldTiles`: removes the given items from the scene and leaves
      `tiles` alone. */
  function CleanupOldTiles(v: View, items: set<Item>): (r: View)
    ensures r.tiles == v.tiles && r.zoom == v.zoom
    ensures forall it :: it in r.scene <==> it in v.scene && it !in items
  {
    View(v.zoom, v.tiles, v.scene - items, v.nextSerial)
  }

  /** After a zoom step the new level's visible cells are fetched, all of
      them since the map was cleared. */
  lemma WheelFetchesNewLevel(v: View, delta: int, r: Rect, k: PlacedKey)
    ensures var s := WheelEvent(v, delta, r);
      s.view.zoom != v.zoom ==> (k in s.fetches <==> InWrappedView(s.view.zoom, ColumnSpan(r), RowSpan(r), k))
  {
  }

  /** Every filed item is younger than `serial`. */
  predicate FiledSince(v: View, serial: nat) {
    && serial <= v.nextSerial
    && forall k :: k in v.tiles ==> v.tiles[k].serial >= serial
  }

  /** A zoom step hands over only items older than any it will file later. */
  lemma WheelSnapshotIsOld(v: View, delta: int, r: Rect)
    requires Wellformed(v)
    ensures var s := WheelEvent(v, delta, r);
      && Wellformed(s.view)
      && (s.view.zoom != v.zoom ==> FiledSince(s.view, s.view.nextSerial))
      && forall it :: it in s.fading ==> it.serial < s.view.nextSerial
  {
  }

  /** Replies only file new items. */
  lemma ReplyFilesSince(v: View, serial: nat, k: PlacedKey, reply: Reply, decodes: Bytes -> bool)
    requires FiledSince(v, serial)
    ensures FiledSince(HandleTileReply(v, k, reply, decodes), serial)
  {
  }

  /** So when the fade-out of an earlier zoom step ends, however many
      replies came in meanwhile, it removes none of the tiles filed since. */
  lemma CleanupSparesNewTiles(v: View, serial: nat, fading: set<Item>)
    requires Wellformed(v) && FiledSince(v, serial)
    requires forall it :: it in fading ==> it.serial < serial
    ensures var r := CleanupOldTiles(v, fading);
      Wellformed(r) && forall k :: k in v.tiles ==> v.tiles[k] in r.scene
  {
  }
}

=== FILE: search.dfy ===
/** The place search box (py-src/searchwidget.py): a geocoding lookup,
    suggestions ranked by `(place_rank, display_name)`, a name-to-bounding-box
    table in which the last place of a name wins, and the selection that
    emits a box only when it has exactly four coordinates. */
module Search {
  import opened Base

  /** One place of the geocoder's answer: its rank, display name and
      bounding box as the four coordinate strings it should hold. `complete`
      is false when `place_rank`, `display_name` or `boundingbox` is missing
      or `int(place_rank)` fails, so that reading the place raises. */
  datatype Place = Place(complete: bool, rank: int, name: string, bbox: seq<string>)

  /** How `get_coordinates_from_location` ends: the places, `ValueError`
      for an empty answer, or an `Exception` carrying a non-200 status. */
  datatype Lookup = Found(places: seq<Place>) | NotFound | RequestFailed(status: int)

  /** The outcome classification of `get_coordinates_from_location` for a
      response with status `status` and decoded body `data`. */
  function GetCoordinates(status: int, data: seq<Place>): (r: Lookup)
    ensures r.Found? <==> status == 200 && |data| > 0
    ensures r.Found? ==> r.places == data
    ensures r == NotFound <==> status == 200 && |data| == 0
    ensures r.RequestFailed? <==> status != 200
    ensures r.RequestFailed? ==> r.status == status
  {
    if status == 200 then (if |data| > 0 then Found(data) else NotFound)
    else RequestFailed(status)
  }

  /** Python's `<=` on strings: code point by code point, a prefix first. */
  predicate StrLeq(a: string, b: string)
    decreases |a|
  {
    |a| == 0 || (|b| > 0 && (a[0] < b[0] || (a[0] == b[0] && StrLeq(a[1..], b[1..]))))
  }

  lemma {:induction false} StrLeqTotal(a: string, b: string)
    ensures StrLeq(a, b) || StrLeq(b, a)
    decreases |a|
  {
    if |a| > 0 && |b| > 0 && a[0] == b[0] {
      StrLeqTotal(a[1..], b[1..]);
    }
  }

  lemma {:induction false} StrLeqTrans(a: string, b: string, c: string)
    requires StrLeq(a, b) && StrLeq(b, c)
    ensures StrLeq(a, c)
    decreases |a|
  {
    if |a| > 0 && a[0] == b[0] && b[0] == c[0] {
      StrLeqTrans(a[1..], b[1..], c[1..]);
    }
  }

  lemma {:induction false} StrLeqAntisym(a: string, b: string)
    requires StrLeq(a, b) && StrLeq(b, a)
    ensures a == b
    decreases |a|
  {
    if |a| > 0 {
      StrLeqAntisym(a[1..], b[1..]);
      assert a == [a[0]] + a[1..] && b == [b[0]] + b[1..];
    }
  }

  /** `(place_rank, display_name)`. */
  type Ranked = (int, string)

  /** Python's `<=` on such tuples: by rank, then by name. */
  predicate RankedLeq(p: Ranked, q: Ranked) {
    p.0 < q.0 || (p.0 == q.0 && StrLeq(p.1, q.1))
  }

  predicate Sorted(s: seq<Ranked>) {
    forall i, j :: 0 <= i < j < |s| ==> RankedLeq(s[i], s[j])
  }

  /** The display names of ranked places, in order. */
  function Names(s: seq<Ranked>): (r: seq<string>)
    ensures |r| == |s|
  {
    seq(|s|, i requires 0 <= i < |s| => s[i].1)
  }

  /** Inserts `p` after every entry that sorts before it. */
  function Insert(p: Ranked, s: seq<Ranked>): (r: seq<Ranked>)
    requires Sorted(s)
    ensures Sorted(r)
    ensures multiset(r) == multiset(s) + multiset{p}
    ensures |r| == |s| + 1
    decreases |s|
  {
    if |s| == 0 then [p]
    else if RankedLeq(p, s[0]) then
      InsertHeadSorted(p, s);
      [p] + s
    else
      var rest := Insert(p, s[1..]);
      assert s == [s[0]] + s[1..];
      PrependSorted(s[0], rest, p, s[1..]);
      [s[0]] + rest
  }

  lemma RankedLeqTrans(p: Ranked, q: Ranked, r: Ranked)
    requires RankedLeq(p, q) && RankedLeq(q, r)
    ensures RankedLeq(p, r)
  {
    if p.0 == q.0 && q.0 == r.0 {
      StrLeqTrans(p.1, q.1, r.1);
    }
  }

  lemma InsertHeadSorted(p: Ranked, s: seq<Ranked>)
    requires Sorted(s) && |s| > 0 && RankedLeq(p, s[0])
    ensures Sorted([p] + s)
  {
    forall j | 0 <= j < |s|
      ensures RankedLeq(p, s[j])
    {
      if j > 0 {
        RankedLeqTrans(p, s[0], s[j]);
      }
    }
  }

  /** `h` sorts before everything of `rest`, which holds `t` and `p`. */
  lemma PrependSorted(h: Ranked, rest: seq<Ranked>, p: Ranked, t: seq<Ranked>)
    requires Sorted(rest) && Sorted([h] + t)
    requires multiset(rest) == multiset(t) + multiset{p}
    requires !RankedLeq(p, h)
    ensures Sorted([h] + rest)
  {
    if !(p.0 < h.0 || p.0 == h.0) {
      assert RankedLeq(h, p);
    } else {
      StrLeqTotal(p.1, h.1);
    }
    assert RankedLeq(h, p);
    forall j | 0 <= j < |rest|
      ensures RankedLeq(h, rest[j])
    {
      assert rest[j] in multiset(rest);
      if rest[j] != p {
        assert rest[j] in multiset(t);
        var k :| 0 <= k < |t| && t[k] == rest[j];
        assert ([h] + t)[0] == h && ([h] + t)[k + 1] == t[k];
        assert RankedLeq(([h] + t)[0], ([h] + t)[k + 1]);
      }
    }
  }

  /** `ranked_place.sort()`: an insertion sort. */
  function Sort(s: seq<Ranked>): (r: seq<Ranked>)
    ensures Sorted(r)
    ensures multiset(r) == multiset(s)
    ensures |r| == |s|
    decreases |s|
  {
    if |s| == 0 then []
    else
      assert s == [s[0]] + s[1..];
      Insert(s[0], Sort(s[1..]))
  }

  lemma NamesConcat(a: seq<Ranked>, b: seq<Ranked>)
    ensures Names(a + b) == Names(a) + Names(b)
  {
  }

  /** Removing the entry at `k` leaves the multiset without it. */
  lemma RemoveAt<T>(b: seq<T>, k: nat)
    requires k < |b|
    ensures multiset(b[..k] + b[k + 1..]) == multiset(b) - multiset{b[k]}
  {
    assert b == b[..k] + [b[k]] + b[k + 1..];
  }

  /** The names of `b` are those left after removing entry `k`, plus its
      name. */
  lemma NamesAround(b: seq<Ranked>, k: nat)
    requires k < |b|
    ensures multiset(Names(b)) == multiset(Names(b[..k] + b[k + 1..])) + multiset{b[k].1}
  {
    assert b == b[..k] + ([b[k]] + b[k + 1..]);
    NamesConcat(b[..k], [b[k]] + b[k + 1..]);
    NamesConcat([b[k]], b[k + 1..]);
    NamesConcat(b[..k], b[k + 1..]);
  }

  lemma FindIndex<T>(b: seq<T>, x: T) returns (k: nat)
    requires x in multiset(b)
    ensures k < |b| && b[k] == x
  {
    assert x in b;
    k :| 0 <= k < |b| && b[k] == x;
  }

  /** Taking the head of `a` and its match in `b` leaves equal multisets. */
  lemma RemoveMatching<T>(a: seq<T>, b: seq<T>, k: nat)
    requires multiset(a) == multiset(b) && |a| > 0 && k < |b| && b[k] == a[0]
    ensures multiset(a[1..]) == multiset(b[..k] + b[k + 1..])
  {
    RemoveAt(b, k);
    assert a == [a[0]] + a[1..];
  }

  /** Rearranging ranked pairs rearranges their names alike. */
  lemma {:induction false} NamesPermuted(a: seq<Ranked>, b: seq<Ranked>)
    requires multiset(a) == multiset(b)
    ensures multiset(Names(a)) == multiset(Names(b))
    decreases |a|
  {
    if |a| == 0 {
      assert |b| == |multiset(b)| == 0;
    } else {
      var k := FindIndex(b, a[0]);
      var b' := b[..k] + b[k + 1..];
      RemoveMatching(a, b, k);
      NamesPermuted(a[1..], b');
      NamesAround(a, 0);
      NamesAround(b, k);
      assert a[..0] + a[1..] == a[1..];
    }
  }

  /** Two sorted arrangements of the same pairs start alike. */
  lemma SortedHeadsEqual(a: seq<Ranked>, b: seq<Ranked>)
    requires Sorted(a) && Sorted(b) && multiset(a) == multiset(b) && |a| > 0
    ensures |b| > 0 && a[0] == b[0]
  {
    assert a[0] in multiset(b);
    var i :| 0 <= i < |b| && b[i] == a[0];
    assert b[0] in multiset(a);
    var j :| 0 <= j < |a| && a[j] == b[0];
    if i != 0 && j != 0 {
      assert RankedLeq(b[0], b[i]) && RankedLeq(a[0], a[j]);
      StrLeqAntisym(a[0].1, b[0].1);
    }
  }

  /** A sorted sequence is determined by its contents. */
  lemma {:induction false} SortedUnique(a: seq<Ranked>, b: seq<Ranked>)
    requires Sorted(a) && Sorted(b) && multiset(a) == multiset(b)
    ensures a == b
    decreases |a|
  {
    if |a| == 0 {
      assert |b| == |multiset(b)| == 0;
    } else {
      SortedHeadsEqual(a, b);
      assert a == [a[0]] + a[1..] && b == [b[0]] + b[1..];
      assert multiset(a[1..]) == multiset(a) - multiset{a[0]};
      assert multiset(b[1..]) == multiset(b) - multiset{b[0]};
      SortedUnique(a[1..], b[1..]);
    }
  }

  /** The ranked pairs in answer order. */
  function Pairs(places: seq<Place>): (r: seq<Ranked>)
    ensures |r| == |places|
    ensures forall i :: 0 <= i < |places| ==> r[i] == (places[i].rank, places[i].name)
  {
    seq(|places|, i requires 0 <= i < |places| => (places[i].rank, places[i].name))
  }

  /** The loop over the answer: `location_dict[display_name] = boundingbox`
      for each place in order. */
  function BoxTable(places: seq<Place>): map<string, seq<string>>
    decreases |places|
  {
    if |places| == 0 then map[]
    else
      var last := places[|places| - 1];
      BoxTable(places[..|places| - 1])[last.name := last.bbox]
  }

  /** The table holds the names of the answer and, for each, the box of its
      last place. */
  lemma {:induction false} BoxTableLastWins(places: seq<Place>, i: nat)
    requires i < |places|
    requires forall j :: i < j < |places| ==> places[j].name != places[i].name
    ensures places[i].name in BoxTable(places)
    ensures BoxTable(places)[places[i].name] == places[i].bbox
    decreases |places|
  {
    if i < |places| - 1 {
      var init := places[..|places| - 1];
      assert init[i] == places[i];
      forall j | i < j < |init|
        ensures init[j].name != init[i].name
      {
        assert init[j] == places[j];
      }
      BoxTableLastWins(init, i);
    }
  }

  lemma {:induction false} BoxTableKeys(places: seq<Place>, name: string)
    ensures name in BoxTable(places) <==> exists i :: 0 <= i < |places| && places[i].name == name
    decreases |places|
  {
    if |places| > 0 {
      var init := places[..|places| - 1];
      BoxTableKeys(init, name);
      if exists i :: 0 <= i < |places| && places[i].name == name {
        var i :| 0 <= i < |places| && places[i].name == name;
        if i < |init| {
          assert init[i] == places[i];
        }
      }
      if exists i :: 0 <= i < |init| && init[i].name == name {
        var i :| 0 <= i < |init| && init[i].name == name;
        assert places[i] == init[i];
      }
    }
  }

  /** How far the loop of `changeEditText` gets: the index of the first
      incomplete place, where reading it raises, or the length of the answer
      when every place is complete. */
  function FilledUpTo(places: seq<Place>): (n: nat)
    ensures n <= |places|
    ensures forall j :: 0 <= j < n ==> places[j].complete
    ensures n < |places| ==> !places[n].complete
    decreases |places|
  {
    if |places| == 0 || !places[0].complete then 0
    else
      var n := 1 + FilledUpTo(places[1..]);
      assert forall j :: 1 <= j < n ==> places[j] == places[1..][j - 1];
      n
  }

  /** The widget state: whether the suggestion list shows, `location_dict`
      and `suggestions`. */
  datatype Widget = Widget(listVisible: bool, table: map<string, seq<string>>, suggestions: seq<string>)

  /** `changeEditText` with the lookup's outcome: text of at most three
      characters hides the list and changes nothing else. Longer text shows
      the list and clears the table before the lookup, so a failed lookup
      (which raises) leaves the table empty and the suggestions as they were.
      A successful one fills the table place by place; an incomplete place
      raises there, leaving the places before it filed and the suggestions
      as they were. When every place is complete the suggestions become the
      names sorted by `(place_rank, display_name)`. */
  function ChangeEditText(w: Widget, text: string, lookup: Lookup): (r: Widget)
    ensures |text| <= 3 ==> r == w.(listVisible := false)
    ensures |text| > 3 ==> r.listVisible
    ensures |text| > 3 && !lookup.Found? ==> r.table == map[] && r.suggestions == w.suggestions
    ensures |text| > 3 && lookup.Found? && FilledUpTo(lookup.places) < |lookup.places| ==>
      && r.table == BoxTable(lookup.places[..FilledUpTo(lookup.places)])
      && r.suggestions == w.suggestions
    ensures |text| > 3 && lookup.Found? && (forall j :: 0 <= j < |lookup.places| ==> lookup.places[j].complete) ==>
      && r.table == BoxTable(lookup.places)
      && |r.suggestions| == |lookup.places|
      && multiset(r.suggestions) == multiset(Names(Pairs(lookup.places)))
  {
    if |text| <= 3 then w.(listVisible := false)
    else
      match lookup
      case Found(places) =>
        var n := FilledUpTo(places);
        if n < |places| then Widget(true, BoxTable(places[..n]), w.suggestions)
        else
          NamesPermuted(Sort(Pairs(places)), Pairs(places));
          Widget(true, BoxTable(places), Names(Sort(Pairs(places))))
      case _ => Widget(true, map[], w.suggestions)
  }

  /** The suggestions are the names of the answer's `(rank, name)` pairs in
      the one ascending order of those pairs: any sorted arrangement of the
      pairs gives the same names. */
  lemma SuggestionsRanked(w: Widget, text: string, places: seq<Place>, arranged: seq<Ranked>)
    requires |text| > 3
    requires forall j :: 0 <= j < |places| ==> places[j].complete
    requires Sorted(arranged) && multiset(arranged) == multiset(Pairs(places))
    ensures ChangeEditText(w, text, Found(places)).suggestions == Names(arranged)
  {
    SortedUnique(Sort(Pairs(places)), arranged);
  }

  /** The four numbers emitted: south, north, west, east. */
  datatype Box = Box(south: real, north: real, west: real, east: real)

  /** `onSelection` for the clicked text, with `toFloat` standing for
      Python's `float` (None where it raises): a box is emitted only for a
      name with a non-empty box of exactly four entries that all convert,
      and then the list is hidden. */
  function OnSelection(w: Widget, text: string, toFloat: string -> Option<real>): (r: (Option<Box>, Widget))
    ensures r.0.Some? <==>
      && text in w.table && |w.table[text]| == 4
      && (forall i :: 0 <= i < 4 ==> toFloat(w.table[text][i]).Some?)
    ensures r.0.Some? ==>
      && r.0.value == Box(toFloat(w.table[text][0]).value, toFloat(w.table[text][1]).value,
                          toFloat(w.table[text][2]).value, toFloat(w.table[text][3]).value)
      && r.1 == w.(listVisible := false)
    ensures r.0.None? ==> r.1 == w
  {
    if text !in w.table || |w.table[text]| == 0 || |w.table[text]| != 4 then (None, w)
    else
      var b := w.table[text];
      match (toFloat(b[0]), toFloat(b[1]), toFloat(b[2]), toFloat(b[3]))
      case (Some(s), Some(n), Some(we), Some(e)) => (Some(Box(s, n, we, e)), w.(listVisible := false))
      case _ => (None, w)
  }

  /** Picking a name after a successful lookup emits the box of the last
      place of that name when it has four convertible coordinates, provided
      the loop got past that place; this holds even when a later place is
      incomplete and the loop stops there. */
  lemma SelectedSuggestionEmits(w: Widget, text: string, places: seq<Place>, i: nat, toFloat: string -> Option<real>)
    requires |text| > 3 && i < |places|
    requires forall j :: 0 <= j <= i ==> places[j].complete
    requires forall j :: i < j < |places| ==> places[j].name != places[i].name
    requires |places[i].bbox| == 4 && forall k :: 0 <= k < 4 ==> toFloat(places[i].bbox[k]).Some?
    ensures var after := ChangeEditText(w, text, Found(places));
      OnSelection(after, places[i].name, toFloat).0 ==
        Some(Box(toFloat(places[i].bbox[0]).value, toFloat(places[i].bbox[1]).value,
                 toFloat(places[i].bbox[2]).value, toFloat(places[i].bbox[3]).value))
  {
    var n := FilledUpTo(places);
    if n < |places| {
      var filed := places[..n];
      forall j | i < j < |filed|
        ensures filed[j].name != filed[i].name
      {
        assert filed[j] == places[j];
      }
      BoxTableLastWins(filed, i);
    } else {
      BoxTableLastWins(places, i);
    }
  }
}

=== FILE: tile_name.dfy ===
/** Tile names in the key-value store used by the Python viewers:
    `"{x}_{y}_{z}_tile"`, recognised by `check_and_extract_numbers` with the
    regular expression `^(\d+)_(\d+)_(\d+)_tile$` under `re.match`. */
module TileName {
  import opened Base

  predicate IsDigit(c: char) {
    '0' <= c <= '9'
  }

  predicate AllDigits(s: string) {
    forall i :: 0 <= i < |s| ==> IsDigit(s[i])
  }

  /** What `\d+` matches: a non-empty run of digits. */
  predicate IsNumeral(s: string) {
    |s| > 0 && AllDigits(s)
  }

  function DigitChar(d: nat): (c: char)
    requires d < 10
    ensures IsDigit(c)
  {
    ('0' as int + d) as char
  }

  function DigitValue(c: char): (d: nat)
    requires IsDigit(c)
    ensures d < 10
    ensures DigitChar(d) == c
  {
    c as int - '0' as int
  }

  /** Python `int(s)` on a run of digits; leading zeros are allowed. */
  function DecimalValue(s: string): nat
    requires AllDigits(s)
  {
    if |s| == 0 then 0 else 10 * DecimalValue(s[..|s| - 1]) + DigitValue(s[|s| - 1])
  }

  /** Python `str(n)` / `f"{n}"` for a natural number: the canonical numeral,
      which starts with '0' only for zero itself. */
  function Decimal(n: nat): (s: string)
    ensures IsNumeral(s)
    ensures s[0] == '0' <==> n == 0
  {
    if n < 10 then [DigitChar(n)] else Decimal(n / 10) + [DigitChar(n % 10)]
  }

  lemma {:induction false} DecimalRoundTrip(n: nat)
    ensures DecimalValue(Decimal(n)) == n
  {
    if n >= 10 {
      var s := Decimal(n);
      assert s[..|s| - 1] == Decimal(n / 10);
      DecimalRoundTrip(n / 10);
    }
  }

  /** Length of the longest run of digits at the front of `s`, which is where
      a greedy `\d+` stops. */
  function DigitSpan(s: string): (n: nat)
    ensures n <= |s|
    ensures forall i :: 0 <= i < n ==> IsDigit(s[i])
    ensures n < |s| ==> !IsDigit(s[n])
  {
    if |s| == 0 || !IsDigit(s[0]) then 0 else 1 + DigitSpan(s[1..])
  }

  /** The three captured groups of a matching name. */
  datatype Fields = Fields(x: string, y: string, z: string)

  /** What follows the third group: `_tile` and then `$`, which in Python also
      matches just before one final newline. */
  predicate IsTileSuffix(s: string) {
    s == "_tile" || s == "_tile\n"
  }

  /** A greedy `\d+` at the front of `s`: the digits and what follows them. */
  function TakeNumeral(s: string): (r: Option<(string, string)>)
    ensures r.Some? ==> IsNumeral(r.value.0) && s == r.value.0 + r.value.1
    ensures r.Some? ==> |r.value.1| == 0 || !IsDigit(r.value.1[0])
    ensures r.None? <==> |s| == 0 || !IsDigit(s[0])
  {
    var n := DigitSpan(s);
    assert s == s[..n] + s[n..];
    if n == 0 then None else Some((s[..n], s[n..]))
  }

  /** `(\d+)_`: a numeral and the '_' after it; returns the rest. */
  function TakeField(s: string): (r: Option<(string, string)>)
    ensures r.Some? ==> IsNumeral(r.value.0) && s == r.value.0 + ("_" + r.value.1)
  {
    match TakeNumeral(s)
    case None => None
    case Some((d, rest)) => if |rest| > 0 && rest[0] == '_' then Some((d, rest[1..])) else None
  }

  /** The match of `^(\d+)_(\d+)_(\d+)_tile$`: the groups, or None. Every `\d+`
      is followed by a non-digit, so the greedy runs never need backtracking. */
  function Split(s: string): Option<Fields> {
    match TakeField(s)
    case None => None
    case Some((x, t)) =>
      match TakeField(t)
      case None => None
      case Some((y, u)) =>
        match TakeNumeral(u)
        case None => None
        case Some((z, v)) => if IsTileSuffix(v) then Some(Fields(x, y, z)) else None
  }

  function TileSuffix(newline: bool): (s: string)
    ensures IsTileSuffix(s)
  {
    if newline then "_tile\n" else "_tile"
  }

  /** A string of the matched shape, with or without the trailing newline. */
  function Compose(f: Fields, newline: bool): string {
    f.x + ("_" + (f.y + ("_" + (f.z + TileSuffix(newline)))))
  }

  /** `check_and_extract_numbers`: `(True, [x, y, z])` for a matching name and
      `(False, [])` for any other string. */
  function CheckAndExtractNumbers(s: string): (r: (bool, seq<nat>))
    ensures r.0 <==> Split(s).Some?
    ensures r.0 ==> |r.1| == 3
    ensures !r.0 ==> r.1 == []
  {
    match Split(s)
    case None => (false, [])
    case Some(f) => (true, [DecimalValue(f.x), DecimalValue(f.y), DecimalValue(f.z)])
  }

  /** Python `f"{i}"` for any integer: a minus sign before the numeral of a
      negative number. */
  function SignedDecimal(i: int): (s: string)
    ensures i >= 0 ==> s == Decimal(i)
    ensures i < 0 ==> |s| > 1 && s[0] == '-' && s[1..] == Decimal(-i)
  {
    if i < 0 then "-" + Decimal(-i) else Decimal(i)
  }

  /** The store key `f"{x}_{y}_{z}_tile"` the cached viewer looks up and
      writes. */
  function FormatTileName(x: int, y: int, z: int): string {
    SignedDecimal(x) + ("_" + (SignedDecimal(y) + ("_" + (SignedDecimal(z) + "_tile"))))
  }

  /** A greedy digit run stops exactly at the end of a numeral followed by a
      non-digit. */
  lemma {:induction false} DigitSpanOfNumeral(a: string, rest: string)
    requires AllDigits(a)
    requires |rest| == 0 || !IsDigit(rest[0])
    ensures DigitSpan(a + rest) == |a|
  {
    if |a| > 0 {
      assert (a + rest)[1..] == a[1..] + rest;
      DigitSpanOfNumeral(a[1..], rest);
    }
  }

  lemma TakeNumeralOf(a: string, rest: string)
    requires IsNumeral(a)
    requires |rest| == 0 || !IsDigit(rest[0])
    ensures TakeNumeral(a + rest) == Some((a, rest))
  {
    DigitSpanOfNumeral(a, rest);
    assert (a + rest)[..|a|] == a;
    assert (a + rest)[|a|..] == rest;
  }

  lemma TakeFieldOf(a: string, rest: string)
    requires IsNumeral(a)
    ensures TakeField(a + ("_" + rest)) == Some((a, rest))
  {
    TakeNumeralOf(a, "_" + rest);
    assert ("_" + rest)[1..] == rest;
  }

  /** Every string of the shape `\d+_\d+_\d+_tile` (optionally followed by a
      newline) is matched, with exactly its three digit runs as groups. */
  lemma SplitComplete(f: Fields, newline: bool)
    requires IsNumeral(f.x) && IsNumeral(f.y) && IsNumeral(f.z)
    ensures Split(Compose(f, newline)) == Some(f)
  {
    var suffix := TileSuffix(newline);
    var u := f.z + suffix;
    var t := f.y + ("_" + u);
    TakeFieldOf(f.x, t);
    TakeFieldOf(f.y, u);
    TakeNumeralOf(f.z, suffix);
  }

  /** Conversely every matched string has that shape: the parser accepts
      nothing else (no sign, no `tile_` prefix, no other separator). */
  lemma SplitSound(s: string)
    requires Split(s).Some?
    ensures var f := Split(s).value;
      && IsNumeral(f.x) && IsNumeral(f.y) && IsNumeral(f.z)
      && (s == Compose(f, false) || s == Compose(f, true))
  {
    var x, t := TakeField(s).value.0, TakeField(s).value.1;
    var y, u := TakeField(t).value.0, TakeField(t).value.1;
    var z, v := TakeNumeral(u).value.0, TakeNumeral(u).value.1;
    var f := Fields(x, y, z);
    assert Split(s) == Some(f) && IsTileSuffix(v);
    assert v == TileSuffix(v != "_tile");
  }

  /** Every name of the matched shape, with or without the final newline,
      yields `int()` of its three digit runs, leading zeros and all. */
  lemma ExtractsGroupValues(f: Fields, newline: bool)
    requires IsNumeral(f.x) && IsNumeral(f.y) && IsNumeral(f.z)
    ensures CheckAndExtractNumbers(Compose(f, newline)) ==
      (true, [DecimalValue(f.x), DecimalValue(f.y), DecimalValue(f.z)])
  {
    SplitComplete(f, newline);
  }

  /** Conversely every accepted string is such a name, and its numbers are
      the values of its own digit runs. */
  lemma ExtractedFromGroups(s: string) returns (f: Fields, newline: bool)
    requires CheckAndExtractNumbers(s).0
    ensures IsNumeral(f.x) && IsNumeral(f.y) && IsNumeral(f.z)
    ensures s == Compose(f, newline)
    ensures CheckAndExtractNumbers(s).1 == [DecimalValue(f.x), DecimalValue(f.y), DecimalValue(f.z)]
  {
    SplitSound(s);
    f := Split(s).value;
    newline := s != Compose(f, false);
  }

  /** A name written by the viewer parses back to its own coordinates. */
  lemma TileNameRoundTrip(x: nat, y: nat, z: nat)
    ensures CheckAndExtractNumbers(FormatTileName(x, y, z)) == (true, [x, y, z])
  {
    var f := Fields(Decimal(x), Decimal(y), Decimal(z));
    assert FormatTileName(x, y, z) == Compose(f, false);
    SplitComplete(f, false);
    DecimalRoundTrip(x);
    DecimalRoundTrip(y);
    DecimalRoundTrip(z);
  }

  /** A name formatted from a negative column is not a tile name. */
  lemma NegativeColumnRejected(x: int, y: int, z: int)
    requires x < 0
    ensures CheckAndExtractNumbers(FormatTileName(x, y, z)) == (false, [])
  {
    assert FormatTileName(x, y, z)[0] == '-';
  }

  /** Anything not starting with a digit is rejected: signed numbers, the
      empty string and the Go side's `tile_{x}_{y}_{z}` keys among them. */
  lemma RejectsNonDigitStart(s: string)
    requires |s| == 0 || !IsDigit(s[0])
    ensures CheckAndExtractNumbers(s) == (false, [])
  {
  }

  /** A leading zero does not change the value of a numeral. */
  lemma {:induction false} LeadingZeroValue(d: string)
    requires AllDigits(d)
    ensures AllDigits("0" + d)
    ensures DecimalValue("0" + d) == DecimalValue(d)
  {
    if |d| > 0 {
      assert ("0" + d)[..|d|] == "0" + d[..|d| - 1];
      LeadingZeroValue(d[..|d| - 1]);
    }
  }

  /** Leading zeros are accepted, so two different names denote the same
      tile: `"05_1_1_tile"` parses like `"5_1_1_tile"`. */
  lemma LeadingZerosCollide(x: nat, y: nat, z: nat)
    ensures "0" + FormatTileName(x, y, z) != FormatTileName(x, y, z)
    ensures CheckAndExtractNumbers("0" + FormatTileName(x, y, z)) == (true, [x, y, z])
  {
    var f := Fields("0" + Decimal(x), Decimal(y), Decimal(z));
    assert "0" + FormatTileName(x, y, z) == Compose(f, false);
    LeadingZeroValue(Decimal(x));
    SplitComplete(f, false);
    DecimalRoundTrip(x);
    DecimalRoundTrip(y);
    DecimalRoundTrip(z);
    assert |"0" + FormatTileName(x, y, z)| != |FormatTileName(x, y, z)|;
  }

  /** `$` matches before a final newline, so a name with a trailing newline is
      accepted too. */
  lemma TrailingNewlineAccepted(x: nat, y: nat, z: nat)
    ensures CheckAndExtractNumbers(FormatTileName(x, y, z) + "\n") == (true, [x, y, z])
  {
    var f := Fields(Decimal(x), Decimal(y), Decimal(z));
    assert FormatTileName(x, y, z) + "\n" == Compose(f, true);
    SplitComplete(f, true);
    DecimalRoundTrip(x);
    DecimalRoundTrip(y);
    DecimalRoundTrip(z);
  }
}

=== FILE: tile_server.dfy ===
/** The caching tile server (src/osm_tile_server/main.go): the handler of
    `/{z}/{x}/{y}.png` reads the tile from the key-value store and, when it
    is not there, fetches it upstream, stores the body and serves it. */
module TileServer {
  import opened Base
  import TileName
  import BoxLoader

  /** The store key built from the raw path segments:
      `fmt.Sprintf("tile_%s_%s_%s", x, y, z)`. */
  function ServerKey(x: string, y: string, z: string): string {
    "tile_" + x + "_" + y + "_" + z
  }

  /** What the upstream GET returns: a transport error with its text, or a
      response of any status with its body. */
  datatype Upstream = TransportError(message: Bytes) | Reply(status: int, body: Bytes)

  /** The HTTP response written: its status and the concatenation of all
      writes. */
  datatype Response = Response(status: int, body: Bytes)

  /** One request's effect: the response, the store afterwards, and whether
      an upstream fetch was made. */
  datatype Served = Served(response: Response, store: map<string, Bytes>, fetched: bool)

  const StatusOK: int := 200
  const StatusNotFound: int := 404

  /** The body of a failed upstream response: resty hands back a response
      without a body. */
  function UpstreamBody(up: Upstream): Bytes {
    match up
    case TransportError(_) => []
    case Reply(_, body) => body
  }

  /** The store after `pipeline.Set(key, body)`; a failed pipeline leaves it
      unchanged. */
  function Put(store: map<string, Bytes>, key: string, body: Bytes, setFails: bool): map<string, Bytes> {
    if setFails then store else store[key := body]
  }

  /** The handler as written. `getFails` and `setFails` say whether the store
      read and the pipeline fail; `up` is what the upstream GET returns if it
      is issued. A stored tile is served with status 200. Otherwise (a
      missing key or a failed read) the tile is fetched; after a transport
      error 404 and the error text are written, but the handler goes on: the
      (empty) body is stored under the key and written as well. */
  function ServeTile(store: map<string, Bytes>, z: string, x: string, y: string,
                     getFails: bool, up: Upstream, setFails: bool): (s: Served)
    ensures !getFails && ServerKey(x, y, z) in store ==>
      s == Served(Response(StatusOK, store[ServerKey(x, y, z)]), store, false)
    ensures getFails || ServerKey(x, y, z) !in store ==>
      && s.fetched
      && s.store == Put(store, ServerKey(x, y, z), UpstreamBody(up), setFails)
    ensures (getFails || ServerKey(x, y, z) !in store) && up.Reply? ==>
      s.response == Response(StatusOK, up.body)
    ensures (getFails || ServerKey(x, y, z) !in store) && up.TransportError? ==>
      s.response == Response(StatusNotFound, up.message)
  {
    var key := ServerKey(x, y, z);
    if !getFails && key in store then Served(Response(StatusOK, store[key]), store, false)
    else
      var head := match up
        case TransportError(message) => Response(StatusNotFound, message)
        case Reply(_, _) => Response(StatusOK, []);
      var body := UpstreamBody(up);
      Served(Response(head.status, head.body + body), Put(store, key, body, setFails), true)
  }

  /** A transport error poisons the store: the empty body is stored under the
      tile's key, so the next request for that tile is a hit that serves an
      empty tile with status 200 and never fetches again. */
  lemma UpstreamErrorPoisonsStore(store: map<string, Bytes>, z: string, x: string, y: string, message: Bytes)
    requires ServerKey(x, y, z) !in store
    ensures var first := ServeTile(store, z, x, y, false, TransportError(message), false);
      && first.store[ServerKey(x, y, z)] == []
      && forall up: Upstream ::
        ServeTile(first.store, z, x, y, false, up, false) == Served(Response(StatusOK, []), first.store, false)
  {
  }

  /** The handler with `return` after the error response: a transport error
      answers 404 with the error text and leaves the store alone; every other
      case is the handler as written. */
  function ServeTileCorrected(store: map<string, Bytes>, z: string, x: string, y: string,
                              getFails: bool, up: Upstream, setFails: bool): (s: Served)
    ensures (getFails || ServerKey(x, y, z) !in store) && up.TransportError? ==>
      s == Served(Response(StatusNotFound, up.message), store, true)
    ensures !((getFails || ServerKey(x, y, z) !in store) && up.TransportError?) ==>
      s == ServeTile(store, z, x, y, getFails, up, setFails)
    ensures forall k :: k in s.store && k != ServerKey(x, y, z) ==> k in store && s.store[k] == store[k]
    ensures forall k :: k in store ==> k in s.store
  {
    if (getFails || ServerKey(x, y, z) !in store) && up.TransportError? then
      Served(Response(StatusNotFound, up.message), store, true)
    else
      ServeTile(store, z, x, y, getFails, up, setFails)
  }

  /** With the correction, only upstream bodies are ever stored: a request
      that stores anything stores exactly the body of a response it
      received, and a failed fetch is retried on the next request. */
  lemma CorrectedStoresOnlyResponses(store: map<string, Bytes>, z: string, x: string, y: string,
                                     getFails: bool, up: Upstream, setFails: bool)
    ensures var s := ServeTileCorrected(store, z, x, y, getFails, up, setFails);
      s.store != store ==> up.Reply? && s.store == store[ServerKey(x, y, z) := up.body]
    ensures up.TransportError? && ServerKey(x, y, z) !in store ==>
      ServeTileCorrected(ServeTileCorrected(store, z, x, y, getFails, up, setFails).store, z, x, y, false, up, setFails).fetched
  {
  }

  /** Write-through then read-through: a fetched response that was stored is
      served from the store on the next request, with the same bytes and no
      fetch. */
  lemma StoredResponseIsServed(store: map<string, Bytes>, z: string, x: string, y: string,
                               getFails: bool, status: int, body: Bytes, next: Upstream)
    requires getFails || ServerKey(x, y, z) !in store
    ensures var first := ServeTileCorrected(store, z, x, y, getFails, Reply(status, body), false);
      var second := ServeTileCorrected(first.store, z, x, y, false, next, false);
      && first.response == Response(StatusOK, body)
      && second == Served(Response(StatusOK, body), first.store, false)
  {
  }

  /** The key is built from the raw segments, so `/5/05/1.png` and
      `/5/5/1.png` name the same tile under different keys. */
  lemma LeadingZeroIsAnotherKey(y: string, z: string)
    ensures ServerKey("05", y, z) != ServerKey("5", y, z)
  {
    assert |ServerKey("05", y, z)| != |ServerKey("5", y, z)|;
  }

  /** Segments may contain `_`, so two different paths can share a key. */
  lemma SeparatorInSegmentCollides()
    ensures ServerKey("1_2", "3", "4") == ServerKey("1", "2_3", "4")
  {
  }

  /** For canonical numerals the server's key is the loader's, so the server
      serves what the loader pre-filled. */
  lemma ServerReadsLoaderKeys(x: nat, y: nat, zoom: nat, store: map<string, Bytes>, up: Upstream)
    requires BoxLoader.LoaderKey(x, y, zoom) in store
    ensures ServerKey(TileName.Decimal(x), TileName.Decimal(y), TileName.Decimal(zoom)) == BoxLoader.LoaderKey(x, y, zoom)
    ensures var s := ServeTile(store, TileName.Decimal(zoom), TileName.Decimal(x), TileName.Decimal(y), false, up, false);
      !s.fetched && s.response.body == store[BoxLoader.LoaderKey(x, y, zoom)]
  {
  }
}

=== FILE: viewport.dfy ===
/** Viewport-to-tile arithmetic shared by the `updateTiles` variants: which
    tile columns and rows the visible scene rectangle touches, how a column
    wraps around the world horizontally, and the cells each variant visits. */
module Viewport {
  import opened Base

  /** The visible part of the scene in scene pixels
      (`mapToScene(viewport().rect()).boundingRect()`). */
  datatype Rect = Rect(left: real, top: real, right: real, bottom: real)

  /** `int(v // tile_size)`: the tile index under scene coordinate `v`. */
  function TileIndex(v: real): (i: int)
    ensures (i * TileSize) as real <= v < ((i + 1) * TileSize) as real
  {
    (v / TileSize as real).Floor
  }

  /** An inclusive range of tile indices, `range(lo, hi + 1)`. */
  datatype Span = Span(lo: int, hi: int)

  /** Columns scanned by `updateTiles`: from the tile under the left edge to
      one past the tile under the right edge. */
  function ColumnSpan(r: Rect): Span {
    Span(TileIndex(r.left), TileIndex(r.right) + 1)
  }

  /** Rows scanned by `updateTiles`: likewise from the top to one past the
      bottom edge. */
  function RowSpan(r: Rect): Span {
    Span(TileIndex(r.top), TileIndex(r.bottom) + 1)
  }

  /** The scanned spans cover every tile the visible rectangle touches. */
  lemma SpansCoverRect(r: Rect, px: real, py: real)
    requires r.left <= px <= r.right && r.top <= py <= r.bottom
    ensures ColumnSpan(r).lo <= TileIndex(px) <= ColumnSpan(r).hi
    ensures RowSpan(r).lo <= TileIndex(py) <= RowSpan(r).hi
  {
  }

  /** A column folded into the world: the column of the tile image and the
      world offset (in columns) of the copy it is drawn in. */
  datatype Wrapped = Wrapped(column: int, offset: int)

  /** `wrapped_x = x % n_tiles`, `world_offset = x - wrapped_x`. */
  function Wrap(x: int, zoom: nat): (w: Wrapped)
    ensures 0 <= w.column < Pow2(zoom)
    ensures w.offset % Pow2(zoom) == 0
    ensures w.column + w.offset == x
  {
    var n := Pow2(zoom);
    assert x - x % n == (x / n) * n;
    MultipleMod(x / n, n);
    Wrapped(x % n, x - x % n)
  }

  /** The wrap is the only split of `x` into an in-world column and a
      whole-world offset. */
  lemma WrapUnique(x: int, zoom: nat, w: Wrapped)
    requires 0 <= w.column < Pow2(zoom)
    requires w.offset % Pow2(zoom) == 0
    requires w.column + w.offset == x
    ensures Wrap(x, zoom) == w
  {
    var n := Pow2(zoom);
    var k := w.offset / n;
    assert w.offset == k * n;
    DivModUnique(x, n, k, w.column);
  }

  /** The key the wrapping viewers file a tile under:
      `(zoom, wrapped_x, y, world_offset)`. */
  datatype PlacedKey = PlacedKey(zoom: nat, x: int, y: int, offset: int)

  /** Scene column of the copy a key stands for, `x + world_offset`. */
  function SceneColumn(k: PlacedKey): int {
    k.x + k.offset
  }

  /** The key of scene column `x`, row `y` at a zoom level. */
  function PlacedCell(zoom: nat, x: int, y: int): PlacedKey {
    var w := Wrap(x, zoom);
    PlacedKey(zoom, w.column, y, w.offset)
  }

  /** Whether the wrapping `updateTiles` visits key `k`: its zoom is the
      current one, its column and row are inside the world, its offset is a
      whole number of worlds, its scene column is scanned and its row is
      scanned. */
  predicate InWrappedView(zoom: nat, cols: Span, rows: Span, k: PlacedKey) {
    && k.zoom == zoom
    && 0 <= k.x < Pow2(zoom)
    && 0 <= k.y < Pow2(zoom)
    && k.offset % Pow2(zoom) == 0
    && cols.lo <= SceneColumn(k) <= cols.hi
    && rows.lo <= k.y <= rows.hi
  }

  /** The inner loop of the wrapping `updateTiles` for scene column `x`:
      rows `y..hi`, skipping rows outside the world. */
  function WrappedColumn(zoom: nat, x: int, y: int, hi: int): (r: seq<PlacedKey>)
    ensures forall k :: k in r <==> k == PlacedCell(zoom, x, k.y) && y <= k.y <= hi && 0 <= k.y < Pow2(zoom)
    ensures Distinct(r)
    decreases hi - y
  {
    if y > hi then []
    else
      var rest := WrappedColumn(zoom, x, y + 1, hi);
      if y < 0 || y >= Pow2(zoom) then rest
      else
        DistinctConcat([PlacedCell(zoom, x, y)], rest);
        [PlacedCell(zoom, x, y)] + rest
  }

  /** The outer loop: scene columns `x..hi`, each wrapped into the world. */
  function WrappedCells(zoom: nat, x: int, hi: int, rows: Span): (r: seq<PlacedKey>)
    ensures forall k :: k in r <==> InWrappedView(zoom, Span(x, hi), rows, k)
    ensures Distinct(r)
    decreases hi - x
  {
    if x > hi then []
    else
      var here := WrappedColumn(zoom, x, rows.lo, rows.hi);
      var rest := WrappedCells(zoom, x + 1, hi, rows);
      assert forall k :: k in here ==> SceneColumn(k) == x;
      assert forall k :: k in rest ==> SceneColumn(k) > x;
      DistinctConcat(here, rest);
      forall k | InWrappedView(zoom, Span(x, hi), rows, k)
        ensures k in here + rest
      {
        WrapUnique(SceneColumn(k), zoom, Wrapped(k.x, k.offset));
      }
      here + rest
  }

  /** The cells the wrapping `updateTiles` scans for a visible rectangle. */
  function WrappedView(zoom: nat, r: Rect): seq<PlacedKey> {
    WrappedCells(zoom, ColumnSpan(r).lo, ColumnSpan(r).hi, RowSpan(r))
  }

  /** The key the clipping viewer files a tile under: `(zoom, x, y)`. */
  datatype GridKey = GridKey(zoom: nat, x: int, y: int)

  /** Whether the clipping `updateTiles` visits key `k`: current zoom, both
      indices in `[0, 2^zoom - 1]` and inside the scanned spans. */
  predicate InClippedView(zoom: nat, cols: Span, rows: Span, k: GridKey) {
    && k.zoom == zoom
    && 0 <= k.x <= Pow2(zoom) - 1
    && 0 <= k.y <= Pow2(zoom) - 1
    && cols.lo <= k.x <= cols.hi
    && rows.lo <= k.y <= rows.hi
  }

  /** Inner loop of the clipping `updateTiles` for column `x`. */
  function ClippedColumn(zoom: nat, x: int, y: int, hi: int): (r: seq<GridKey>)
    ensures forall k :: k in r <==> k == GridKey(zoom, x, k.y) && y <= k.y <= hi && 0 <= k.y <= Pow2(zoom) - 1
    ensures Distinct(r)
    decreases hi - y
  {
    if y > hi then []
    else
      var rest := ClippedColumn(zoom, x, y + 1, hi);
      if y < 0 || y > Pow2(zoom) - 1 then rest
      else
        DistinctConcat([GridKey(zoom, x, y)], rest);
        [GridKey(zoom, x, y)] + rest
  }

  /** Outer loop of the clipping `updateTiles`: columns outside the world
      are skipped rather than wrapped. */
  function ClippedCells(zoom: nat, x: int, hi: int, rows: Span): (r: seq<GridKey>)
    ensures forall k :: k in r <==> InClippedView(zoom, Span(x, hi), rows, k)
    ensures Distinct(r)
    decreases hi - x
  {
    if x > hi then []
    else
      var rest := ClippedCells(zoom, x + 1, hi, rows);
      if x < 0 || x > Pow2(zoom) - 1 then rest
      else
        var here := ClippedColumn(zoom, x, rows.lo, rows.hi);
        assert forall k :: k in rest ==> k.x > x;
        DistinctConcat(here, rest);
        here + rest
  }

  /** The cells the clipping `updateTiles` scans for a visible rectangle. */
  function ClippedView(zoom: nat, r: Rect): seq<GridKey> {
    ClippedCells(zoom, ColumnSpan(r).lo, ColumnSpan(r).hi, RowSpan(r))
  }

  /** At zoom 5 scene column -1 is image column 31 of the
      world copy one world to the left. */
  lemma WrapLeftOfOrigin()
    ensures Wrap(-1, 5) == Wrapped(31, -32)
  {
    assert Pow2(5) == 32;
  }
}

=== FILE: wrapping_view.dfy ===
/** The wrapping map view with preview tiles (py-src/osm_graphics_view.py):
    the `tiles` dictionary keyed `(zoom, x, y, world_offset)`, the event
    handlers that change it, and the best-zoom search behind
    `fitToBoundingBox`. Each handler is one pure transition; replies arriving
    in any order are any interleaving of these transitions. */
module WrappingView {
  import opened Base
  import opened Viewport

  /** `self.zoom`: a level, or Python's `None` once `fitToBoundingBox` has
      stored a failed search result. */
  datatype Zoom = Level(z: nat) | Unset

  /** What a scene item shows: the placeholder loaded by `preLoadTile`, or
      a decoded tile. */
  datatype Image = Preview | Decoded(data: Bytes)

  /** A pixmap item and its scene position. */
  datatype Item = Item(image: Image, px: int, py: int)

  datatype View = View(zoom: Zoom, tiles: map<PlacedKey, Item>)

  /** The state after a handler, and the fetches it started, in order.
      A fetch of key `k` is `GET /{k.zoom}/{k.x}/{k.y}.png` whose reply
      handler remembers the whole key. */
  datatype Step = Step(view: View, fetches: seq<PlacedKey>)

  /** Every filed tile belongs to the current zoom level. */
  predicate AtCurrentZoom(v: View) {
    forall k :: k in v.tiles ==> v.zoom == Level(k.zoom)
  }

  /** `item.setPos((x + world_offset) * tile_size, y * tile_size)`. */
  function Placed(k: PlacedKey, image: Image): (it: Item)
    ensures it.px == (k.x + k.offset) * TileSize
  {
    Item(image, SceneColumn(k) * TileSize, k.y * TileSize)
  }

  /** `preLoadTile`, effect on the map only: the preview is filed under the
      key at once, unless the preview image cannot be loaded. */
  function PreLoadTile(tiles: map<PlacedKey, Item>, k: PlacedKey, previewLoads: bool): map<PlacedKey, Item> {
    if previewLoads then tiles[k := Placed(k, Preview)] else tiles
  }

  /** The body of the `updateTiles` loop over the scanned cells: a cell whose
      key is not filed gets a preview and a fetch. */
  function Scan(tiles: map<PlacedKey, Item>, cells: seq<PlacedKey>, previewLoads: bool): (r: (map<PlacedKey, Item>, seq<PlacedKey>))
    ensures forall k :: k in r.1 <==> k in cells && k !in tiles
    ensures Distinct(cells) ==> Distinct(r.1)
    ensures forall k :: k in tiles ==> k in r.0 && r.0[k] == tiles[k]
    ensures previewLoads ==> forall k :: k in r.0 <==> k in tiles || k in cells
    ensures previewLoads ==> forall k :: k in r.0 && k !in tiles ==> r.0[k] == Placed(k, Preview)
    ensures !previewLoads ==> r.0 == tiles
    decreases |cells|
  {
    if |cells| == 0 then (tiles, [])
    else
      var k := cells[0];
      assert forall c :: c in cells <==> c == k || c in cells[1..];
      assert Distinct(cells) ==> Distinct(cells[1..]);
      if k in tiles then Scan(tiles, cells[1..], previewLoads)
      else
        var rest := Scan(PreLoadTile(tiles, k, previewLoads), cells[1..], previewLoads);
        assert Distinct(cells) ==> k !in cells[1..] && Distinct(cells[1..]);
        DistinctCons(k, rest.1);
        (rest.0, [k] + rest.1)
  }

  /** `updateTiles`. With no zoom level, `2**self.zoom` raises and nothing
      changes. */
  function UpdateTiles(v: View, r: Rect, previewLoads: bool): Step {
    match v.zoom
    case Unset => Step(v, [])
    case Level(z) =>
      var (tiles, fetches) := Scan(v.tiles, WrappedView(z, r), previewLoads);
      Step(View(v.zoom, tiles), fetches)
  }

  /** `updateTiles` fetches exactly the scanned cells whose keys are not yet
      filed: keys at the current zoom, columns and rows inside the world,
      offsets that are whole worlds, no row outside `[0, 2^zoom)`, and no key
      twice. */
  lemma UpdateTilesFetches(v: View, r: Rect, previewLoads: bool, k: PlacedKey)
    requires v.zoom.Level?
    ensures var s := UpdateTiles(v, r, previewLoads);
      && Distinct(s.fetches)
      && (k in s.fetches <==> InWrappedView(v.zoom.z, ColumnSpan(r), RowSpan(r), k) && k !in v.tiles)
  {
  }

  /** Once the previews are filed, a second `updateTiles` over the same
      rectangle before any reply starts no new fetch. */
  lemma PreviewSuppressesRefetch(v: View, r: Rect)
    requires v.zoom.Level?
    ensures var once := UpdateTiles(v, r, true);
      UpdateTiles(once.view, r, true).fetches == []
  {
    var cells := WrappedView(v.zoom.z, r);
    var first := Scan(v.tiles, cells, true);
    var once := UpdateTiles(v, r, true);
    assert once.view == View(v.zoom, first.0);
    var second := Scan(first.0, cells, true);
    assert UpdateTiles(once.view, r, true).fetches == second.1;
    assert forall k :: k in second.1 ==> k in cells && k !in first.0;
    assert forall k :: k in cells ==> k in first.0;
    NoMemberEmpty(second.1);
  }

  /** When the preview image cannot be loaded nothing is filed, so every
      `updateTiles` before the replies repeats the same fetches. */
  lemma MissingPreviewRefetches(v: View, r: Rect)
    ensures var once := UpdateTiles(v, r, false);
      once.view == v && UpdateTiles(once.view, r, false).fetches == once.fetches
  {
  }

  /** The dedup key includes the world offset: two visible copies of the same
      tile image are fetched twice. */
  lemma CopiesFetchedTwice(v: View, r: Rect, x1: int, x2: int, y: int)
    requires v.zoom.Level? && v.tiles == map[]
    requires x1 != x2 && x1 % Pow2(v.zoom.z) == x2 % Pow2(v.zoom.z)
    requires ColumnSpan(r).lo <= x1 <= ColumnSpan(r).hi && ColumnSpan(r).lo <= x2 <= ColumnSpan(r).hi
    requires RowSpan(r).lo <= y <= RowSpan(r).hi && 0 <= y < Pow2(v.zoom.z)
    ensures var f := UpdateTiles(v, r, true).fetches;
      && PlacedCell(v.zoom.z, x1, y) in f && PlacedCell(v.zoom.z, x2, y) in f
      && PlacedCell(v.zoom.z, x1, y) != PlacedCell(v.zoom.z, x2, y)
      && PlacedCell(v.zoom.z, x1, y).x == PlacedCell(v.zoom.z, x2, y).x
  {
    var z := v.zoom.z;
    assert InWrappedView(z, ColumnSpan(r), RowSpan(r), PlacedCell(z, x1, y));
    assert InWrappedView(z, ColumnSpan(r), RowSpan(r), PlacedCell(z, x2, y));
  }

  /** `handleTileReply` for the fetch of key `k`. A reply for another zoom
      level, a network error, or bytes that do not decode leave the view as
      it is; otherwise exactly key `k` is (re)filed with the decoded tile. */
  function HandleTileReply(v: View, k: PlacedKey, reply: Reply, decodes: Bytes -> bool): (r: View)
    ensures r.zoom == v.zoom
    ensures v.zoom != Level(k.zoom) || reply.NetworkError? || !decodes(reply.data) ==> r == v
    ensures v.zoom == Level(k.zoom) && reply.Payload? && decodes(reply.data) ==>
      k in r.tiles && r.tiles[k] == Placed(k, Decoded(reply.data))
    ensures forall k' :: k' != k ==> (k' in r.tiles <==> k' in v.tiles)
    ensures forall k' :: k' != k && k' in r.tiles ==> r.tiles[k'] == v.tiles[k']
  {
    if v.zoom != Level(k.zoom) then v
    else
      match reply
      case NetworkError(_) => v
      case Payload(data) =>
        if !decodes(data) then v
        else View(v.zoom, v.tiles[k := Placed(k, Decoded(data))])
  }

  /** Commit a new zoom: clear `tiles`, store the zoom, then `updateTiles`. */
  function Rezoom(z: nat, r: Rect, previewLoads: bool): Step {
    UpdateTiles(View(Level(z), map[]), r, previewLoads)
  }

  /** `wheelEvent`. `r` is the visible rectangle after re-centring on the
      cursor. An unchanged zoom returns early; with no zoom level the
      arithmetic raises and nothing changes. */
  function WheelEvent(v: View, delta: int, r: Rect, previewLoads: bool): Step {
    match v.zoom
    case Unset => Step(v, [])
    case Level(z) =>
      var target := WheelTarget(z, delta);
      if target == z then Step(v, []) else Rezoom(target, r, previewLoads)
  }

  /** `upZoomEvent`: one level up unless that leaves `[0, 19]`. */
  function UpZoomEvent(v: View, r: Rect, previewLoads: bool): Step {
    match v.zoom
    case Unset => Step(v, [])
    case Level(z) =>
      if z + 1 > MaxZoom then Step(v, []) else Rezoom(z + 1, r, previewLoads)
  }

  /** `downZoomEvent`: one level down unless that leaves `[0, 19]`. */
  function DownZoomEvent(v: View, r: Rect, previewLoads: bool): Step {
    match v.zoom
    case Unset => Step(v, [])
    case Level(z) =>
      if z - 1 > MaxZoom as int || z - 1 < 0 then Step(v, []) else Rezoom(z - 1, r, previewLoads)
  }

  /** What every zoom step promises: either nothing happens at all, or the
      new level is one step from the old, the map has been cleared (every
      filed key was fetched by this very step) and `updateTiles` has run at
      the new level: the fetches are exactly its visible cells, each once. */
  ghost predicate ZoomStepped(v: View, s: Step, r: Rect) {
    || s == Step(v, [])
    || (&& v.zoom.Level? && s.view.zoom.Level?
        && s.view.zoom != v.zoom
        && (s.view.zoom.z == v.zoom.z + 1 || s.view.zoom.z + 1 == v.zoom.z)
        && (forall k :: k in s.view.tiles ==> k in s.fetches)
        && Distinct(s.fetches)
        && (forall k :: k in s.fetches <==> InWrappedView(s.view.zoom.z, ColumnSpan(r), RowSpan(r), k)))
  }

  lemma RezoomClears(z: nat, r: Rect, previewLoads: bool)
    ensures var s := Rezoom(z, r, previewLoads);
      && s.view.zoom == Level(z)
      && (forall k :: k in s.view.tiles ==> k in s.fetches)
      && Distinct(s.fetches)
      && (forall k :: k in s.fetches <==> InWrappedView(z, ColumnSpan(r), RowSpan(r), k))
  {
  }

  /** A rezoom by one level from a set level is a zoom step. */
  lemma RezoomStepped(v: View, target: nat, r: Rect, previewLoads: bool)
    requires v.zoom.Level? && (target == v.zoom.z + 1 || target + 1 == v.zoom.z)
    ensures ZoomStepped(v, Rezoom(target, r, previewLoads), r)
  {
    RezoomClears(target, r, previewLoads);
  }

  /** The three zoom handlers keep a level in `[0, 19]` there, and each either
      does nothing or steps by one with a cleared map. Whenever there is room
      the step is taken, in the handler's direction (the wheel's by the sign
      of `delta`); only at the edge of the range is it skipped. */
  lemma ZoomHandlersStep(v: View, delta: int, r: Rect, previewLoads: bool)
    requires v.zoom.Level? ==> v.zoom.z <= MaxZoom
    ensures v.zoom.Level? && delta > 0 && v.zoom.z < MaxZoom ==>
      WheelEvent(v, delta, r, previewLoads).view.zoom == Level(v.zoom.z + 1)
    ensures v.zoom.Level? && delta <= 0 && v.zoom.z > 0 ==>
      WheelEvent(v, delta, r, previewLoads).view.zoom == Level(v.zoom.z - 1)
    ensures v.zoom.Level? && v.zoom.z < MaxZoom ==>
      UpZoomEvent(v, r, previewLoads).view.zoom == Level(v.zoom.z + 1)
    ensures v.zoom.Level? && v.zoom.z > 0 ==>
      DownZoomEvent(v, r, previewLoads).view.zoom == Level(v.zoom.z - 1)
    ensures v.zoom == Level(MaxZoom) ==>
      && UpZoomEvent(v, r, previewLoads) == Step(v, [])
      && (delta > 0 ==> WheelEvent(v, delta, r, previewLoads) == Step(v, []))
    ensures v.zoom == Level(0) ==>
      && DownZoomEvent(v, r, previewLoads) == Step(v, [])
      && (delta <= 0 ==> WheelEvent(v, delta, r, previewLoads) == Step(v, []))
    ensures ZoomStepped(v, WheelEvent(v, delta, r, previewLoads), r)
    ensures ZoomStepped(v, UpZoomEvent(v, r, previewLoads), r)
    ensures ZoomStepped(v, DownZoomEvent(v, r, previewLoads), r)
    ensures WheelEvent(v, delta, r, previewLoads).view.zoom.Level? ==> WheelEvent(v, delta, r, previewLoads).view.zoom.z <= MaxZoom
    ensures UpZoomEvent(v, r, previewLoads).view.zoom.Level? ==> UpZoomEvent(v, r, previewLoads).view.zoom.z <= MaxZoom
    ensures DownZoomEvent(v, r, previewLoads).view.zoom.Level? ==> DownZoomEvent(v, r, previewLoads).view.zoom.z <= MaxZoom
  {
    if v.zoom.Level? {
      var z := v.zoom.z;
      if WheelTarget(z, delta) != z {
        RezoomStepped(v, WheelTarget(z, delta), r, previewLoads);
      }
      if z + 1 <= MaxZoom {
        RezoomStepped(v, z + 1, r, previewLoads);
      }
      if z >= 1 {
        RezoomStepped(v, z - 1, r, previewLoads);
      }
    }
  }

  /** "Every filed key has the current zoom" survives `updateTiles` and
      replies, whatever order replies arrive in. */
  lemma UpdateAndReplyKeepZoomInvariant(v: View, r: Rect, previewLoads: bool,
                                        k: PlacedKey, reply: Reply, decodes: Bytes -> bool)
    requires AtCurrentZoom(v)
    ensures AtCurrentZoom(UpdateTiles(v, r, previewLoads).view)
    ensures AtCurrentZoom(HandleTileReply(v, k, reply, decodes))
  {
  }

  /** ... and survives the zoom handlers, which clear the map. */
  lemma ZoomHandlersKeepZoomInvariant(v: View, r: Rect, previewLoads: bool, delta: int)
    requires AtCurrentZoom(v)
    ensures AtCurrentZoom(WheelEvent(v, delta, r, previewLoads).view)
    ensures AtCurrentZoom(UpZoomEvent(v, r, previewLoads).view)
    ensures AtCurrentZoom(DownZoomEvent(v, r, previewLoads).view)
  {
    if v.zoom.Level? {
      var z := v.zoom.z;
      RezoomAtZoom(WheelTarget(z, delta), r, previewLoads);
      RezoomAtZoom(z + 1, r, previewLoads);
      if z >= 1 {
        RezoomAtZoom(z - 1, r, previewLoads);
      }
    }
  }

  /** A committed zoom files only keys of that zoom. */
  lemma RezoomAtZoom(z: nat, r: Rect, previewLoads: bool)
    ensures AtCurrentZoom(Rezoom(z, r, previewLoads).view)
  {
    var s := Rezoom(z, r, previewLoads);
    forall k | k in s.view.tiles
      ensures s.view.zoom == Level(k.zoom)
    {
      UpdateTilesFetches(View(Level(z), map[]), r, previewLoads, k);
    }
  }

  /** The loop of `calculateBestZoom` from level `z` down: the first level
      that passes the fit test, never going below level 1
      (`range(19, 0, -1)` stops before 0). */
  function ScanZoom(fits: nat -> bool, z: nat): (r: Option<nat>)
    ensures r.Some? ==> 1 <= r.value <= z && fits(r.value)
    ensures r.Some? ==> forall j :: r.value < j <= z ==> !fits(j)
    ensures r.None? ==> forall j :: 1 <= j <= z ==> !fits(j)
  {
    if z == 0 then None
    else if fits(z) then Some(z)
    else ScanZoom(fits, z - 1)
  }

  /** `calculateBestZoom`: the highest level in `[1, 19]` whose projected box
      fits the viewport, or None. The fit test (Web-Mercator projection and
      viewport size) is the parameter `fits`. */
  function CalculateBestZoom(fits: nat -> bool): Option<nat> {
    ScanZoom(fits, MaxZoom)
  }

  /** A fit test passed by exactly one level. */
  function Exactly(level: nat): nat -> bool {
    z => z == level
  }

  /** Level 0 is never tried, even when it is the only level that fits. */
  lemma BestZoomSkipsZero()
    ensures CalculateBestZoom(Exactly(0)) == None
  {
  }

  /** `fitToBoundingBox`. A box with `south >= north` or `west >= east` is
      rejected with nothing changed. Otherwise the search result is stored
      into the zoom as it is: None leaves the view without a level (and the
      following `updateSceneRect` raises), a level is committed WITHOUT
      clearing `tiles` and `updateTiles` runs over the re-centred rectangle. */
  function FitToBoundingBox(v: View, south: real, north: real, west: real, east: real,
                            fits: nat -> bool, r: Rect, previewLoads: bool): (s: Step)
    ensures south >= north || west >= east ==> s == Step(v, [])
    ensures south < north && west < east && CalculateBestZoom(fits).None? ==>
      s == Step(View(Unset, v.tiles), [])
    ensures south < north && west < east && CalculateBestZoom(fits).Some? ==>
      && s.view.zoom == Level(CalculateBestZoom(fits).value)
      && Distinct(s.fetches)
      && forall k :: k in s.fetches <==>
           InWrappedView(CalculateBestZoom(fits).value, ColumnSpan(r), RowSpan(r), k) && k !in v.tiles
    ensures forall k :: k in v.tiles ==> k in s.view.tiles
  {
    if south >= north || west >= east then Step(v, [])
    else
      match CalculateBestZoom(fits)
      case None => Step(View(Unset, v.tiles), [])
      case Some(z) => UpdateTiles(View(Level(z), v.tiles), r, previewLoads)
  }

  /** `fitToBoundingBox` breaks "every filed key has the current zoom":
      when the search picks another level, the tiles of the old level stay
      filed. */
  lemma FitKeepsStaleTiles(v: View, south: real, north: real, west: real, east: real,
                           fits: nat -> bool, r: Rect, previewLoads: bool)
    requires AtCurrentZoom(v) && v.tiles != map[]
    requires south < north && west < east
    requires CalculateBestZoom(fits).Some? && v.zoom != Level(CalculateBestZoom(fits).value)
    ensures var s := FitToBoundingBox(v, south, north, west, east, fits, r, previewLoads);
      s.view.zoom == Level(CalculateBestZoom(fits).value) && !AtCurrentZoom(s.view)
  {
    var k :| k in v.tiles;
    var s := FitToBoundingBox(v, south, north, west, east, fits, r, previewLoads);
    assert k in s.view.tiles;
  }

  /** With the zoom None, `updateTiles` and the three zoom handlers raise
      before changing anything, and every reply is discarded because its
      zoom differs from None. */
  lemma UnsetZoomBlocksHandlers(v: View, r: Rect, previewLoads: bool, delta: int,
                         k: PlacedKey, reply: Reply, decodes: Bytes -> bool)
    requires v.zoom == Unset
    ensures UpdateTiles(v, r, previewLoads) == Step(v, [])
    ensures WheelEvent(v, delta, r, previewLoads) == Step(v, [])
    ensures UpZoomEvent(v, r, previewLoads) == Step(v, [])
    ensures DownZoomEvent(v, r, previewLoads) == Step(v, [])
    ensures HandleTileReply(v, k, reply, decodes) == v
  {
  }

  /** Only `fitToBoundingBox` gets out of that state: it assigns the zoom
      without reading it, so a box that fits at some level brings that level
      back and fetches its visible cells. */
  lemma FitRecoversFromUnset(v: View, south: real, north: real, west: real, east: real,
                             fits: nat -> bool, r: Rect, previewLoads: bool, level: nat)
    requires v.zoom == Unset && south < north && west < east
    requires 1 <= level <= MaxZoom && fits(level)
    ensures var s := FitToBoundingBox(v, south, north, west, east, fits, r, previewLoads);
      && s.view.zoom.Level? && level <= s.view.zoom.z <= MaxZoom
      && (AtCurrentZoom(v) ==> AtCurrentZoom(s.view))
  {
    var best := CalculateBestZoom(fits);
    assert best.Some?;
  }

  /** A box that fits only at level 0 (wider than half the world in a narrow
      viewport) leaves the viewer without a zoom level. */
  lemma WideBoxUnsetsZoom(v: View, r: Rect)
    ensures FitToBoundingBox(v, 0.0, 1.0, 0.0, 1.0, Exactly(0), r, true).view.zoom == Unset
  {
    BestZoomSkipsZero();
  }

  /** The search as its comment describes it: levels 19 down to 0. */
  function ScanZoomToZero(fits: nat -> bool, z: nat): (r: Option<nat>)
    ensures r.Some? ==> r.value <= z && fits(r.value)
    ensures r.Some? ==> forall j :: r.value < j <= z ==> !fits(j)
    ensures r.None? ==> forall j :: 0 <= j <= z ==> !fits(j)
  {
    if fits(z) then Some(z)
    else if z == 0 then None
    else ScanZoomToZero(fits, z - 1)
  }

  /** Corrected `calculateBestZoom`: whenever some level in `[0, 19]` fits,
      the highest such level. */
  function CalculateBestZoomCorrected(fits: nat -> bool): (r: Option<nat>)
    ensures r.Some? ==> r.value <= MaxZoom && fits(r.value)
    ensures r.Some? ==> forall j :: r.value < j <= MaxZoom ==> !fits(j)
    ensures (exists j :: 0 <= j <= MaxZoom && fits(j)) ==> r.Some?
  {
    ScanZoomToZero(fits, MaxZoom)
  }

  /** Corrected `fitToBoundingBox`: when no level fits, the current level is
      kept, as its comment says; the view never loses its zoom level and
      stays within `[0, 19]`. */
  function FitToBoundingBoxCorrected(v: View, south: real, north: real, west: real, east: real,
                                     fits: nat -> bool, r: Rect, previewLoads: bool): (s: Step)
    requires v.zoom.Level? && v.zoom.z <= MaxZoom
    ensures s.view.zoom.Level? && s.view.zoom.z <= MaxZoom
    ensures south >= north || west >= east ==> s == Step(v, [])
    ensures south < north && west < east && (exists j :: 0 <= j <= MaxZoom && fits(j)) ==>
      fits(s.view.zoom.z)
    ensures south < north && west < east && CalculateBestZoomCorrected(fits).None? ==>
      s.view.zoom == v.zoom
    ensures south < north && west < east && CalculateBestZoomCorrected(fits).Some? ==>
      s.view.zoom == Level(CalculateBestZoomCorrected(fits).value)
    ensures forall k :: k in v.tiles ==> k in s.view.tiles
  {
    if south >= north || west >= east then Step(v, [])
    else
      match CalculateBestZoomCorrected(fits)
      case None => UpdateTiles(v, r, previewLoads)
      case Some(z) => UpdateTiles(View(Level(z), v.tiles), r, previewLoads)
  }
}
